=== FILE: README.md ===
# biokgvec2go — a Dafny model of the query server and the export scripts

biokgvec2go serves pre-trained embeddings of the Gene Ontology (GO) and the
Human Phenotype Ontology (HP). The server loads every model file of one
directory into a registry at start-up. It answers three kinds of queries through five handlers:

- the sorted list of model names;
- the cosine similarity of two terms under one model (`rest_go`, `rest_hp`);
- the `top_n` nearest neighbours of one term (`closest_go`, `closest_hp`).

A raw identifier is either a prefixed id such as `GO_0051301`, which becomes
an OBO IRI without any lookup, or a free-text label. A label is lower-cased,
has `_` read as a space, and is looked up in the ontology's label dictionary
(`GO_Labels` / `HP_Labels`). Two offline scripts produce the files the server
reads:

- `extract_labels.py` writes the two-way label dictionary;
- `run_rdf2vec.py` extracts the entities of an ontology and writes one
  embedding per entity.

The model is organised in modules:

| module | file | models |
|---|---|---|
| `Basics` | basics.dfy | `Option`, duplicate-freedom |
| `Dicts` | dicts.dfy | Python's insertion-ordered `dict` as a sequence of pairs |
| `Text` | text.dfy | `lower`, `replace`, `startswith`, `in`, `split("/")[-1]`, `os.path.splitext`, string order |
| `Similarity` | similarity.dfy | `cosine`, with floats read as reals and `math.sqrt` abstract |
| `Ranking` | ranking.dfy | the scoring loop, the stable descending sort and the `[:top_n]` slice |
| `TieOrder` | tieorder.dfy | why tied neighbours come out in table order and no key repeats |
| `Registry` | registry.dfy | the start-up loader and the sorted model list |
| `Queries` | queries.dfy | key resolution, display labels, the four query handlers and their status codes |
| `Rdf` | rdf.dfy | triples and the node filter shared by both scripts |
| `LabelExtraction` | labelextraction.dfy | `extract_iri_label_dict` |
| `EntityExtraction` | entityextraction.dfy | `extract_entities_rdf` and the output loop of `run_embeddings` |
| `Pipeline` | pipeline.dfy | how the exported files meet the server's resolver and ranking |

A handler returns `Ok(reply)` or `Err(failure)`. The failure is one of:

- `ModelNotFound`, answered with status 404;
- `IdsNotFound(message)`, answered with status 400 and the handler's own message;
- `Crashed(crash)`, an exception that escapes the handler and that the web framework answers with status 500.

Four behaviours of the code shape the model:

- An unknown free-text label raises `KeyError` in the label-dictionary lookup, which the framework answers with 500 (`Crashed(MissingKey(...))`).
- `int(top_n)` is used directly as a Python slice bound: 0 gives an empty list and a negative value drops entries from the end.
- `rest_hp` resolves both ids before it checks the model name; `rest_go`, `closest_go` and `closest_hp` check the model first.
- A JSON model file holds whatever `json.load` returns, and the handlers behave according to that content; a label document used as a vector table fails inside `cosine`.

## Model

The handlers `Queries.CalculateSimilarity` and `Queries.Closest`, the loader `Registry.LoadModels`, the key normalisation `Text.Normalize` and the scoring loop `Ranking.ScoreAll` carry no contract of their own: the lemma rows below that cite the same source lines state their behaviour.

| member | source | states |
|---|---|---|
| Dicts.Get | biokgvec2go/flask_server.py:127-128 | `d.get(k)` is None exactly when `k` is not a key; otherwise it is the value stored with `k` |
| Dicts.Put | biokgvec2go/flask_server.py:35-39 | assignment to a present key keeps the key order; a new key is appended; afterwards `k` maps to the new value and every other key keeps its value |
| Dicts.LemmaPutKeys | biokgvec2go/flask_server.py:35-39 | assignment adds exactly the assigned key and never creates a duplicate key |
| Dicts.FromPairs | run_rdf2vec.py:74-76 | filling a dict pair by pair gives distinct keys, namely the keys of the pairs |
| Dicts.LemmaGetDistinct | biokgvec2go/flask_server.py:202 | in a dict without repeated keys, `get` of an entry's key returns that entry's value |
| Dicts.LemmaFromPairsDistinct | run_rdf2vec.py:74-76 | pairs with distinct keys come out unchanged and in the same order |
| Text.LemmaNormalizeHasNoUnderscore | extract_labels.py:11 | a normalised label contains no `_` and has the input's length |
| Text.LemmaNormalizeIdempotent | biokgvec2go/flask_server.py:115 | normalising a label that is already normalised changes nothing, so query-side and build-side normalisation agree |
| Text.LemmaNormalizeCaseAndUnderscore | biokgvec2go/flask_server.py:115 | `Cell_Division` and `cell division` both normalise to `cell division` |
| Text.LemmaContainsAt | extract_labels.py:10 | the substring test `prefix in s` holds exactly when `prefix` occurs at some index of `s` |
| Text.LastSegment | biokgvec2go/flask_server.py:132-133 | `uri.split("/")[-1]` is a suffix of the URI with no `/`, preceded by a `/` unless it is the whole URI |
| Text.LemmaLastSegmentOfJoin | biokgvec2go/flask_server.py:132-133 | the last segment of an IRI built as base + id is the id when the id has no `/` |
| Text.LastIndexOf | biokgvec2go/flask_server.py:31 | the index of the last occurrence of a character, or -1 when it does not occur |
| Text.SplitExt | biokgvec2go/flask_server.py:31 | `os.path.splitext`: stem + extension is the file name; a non-empty extension starts with `.` and holds no other `.` or `/`; it is non-empty exactly when the last `.` follows a non-dot character of the last path component |
| Text.LemmaSplitExtJson | biokgvec2go/flask_server.py:31 | `GO_RDF2Vec.json` splits into `GO_RDF2Vec` and `.json` |
| Text.LemmaSplitExtLeadingDot | biokgvec2go/flask_server.py:31 | a leading dot does not start an extension: `.json` has none |
| Text.LemmaStrLeTotal | biokgvec2go/flask_server.py:96 | the string order `sorted` uses relates any two strings |
| Text.LemmaStrLeTransitive | biokgvec2go/flask_server.py:96 | the string order is transitive |
| Text.LemmaStrLeAntisymmetric | biokgvec2go/flask_server.py:96 | two strings ordered both ways are equal |
| Text.InsertAscending | biokgvec2go/flask_server.py:96 | insertion into an ascending list adds exactly one copy of the element and keeps it ascending |
| Text.SortAscending | biokgvec2go/flask_server.py:96 | `sorted` returns a permutation of its input in ascending string order |
| Similarity.SumOfSquares | biokgvec2go/flask_server.py:51-52 | the squared norm of an all-zero vector is 0 |
| Similarity.Cosine | biokgvec2go/flask_server.py:49-53 | the score is exactly 0.0 when either vector is all zeros, the `if n1 and n2 else 0.0` fallback |
| Similarity.LemmaDotSymmetric | biokgvec2go/flask_server.py:50 | the dot product does not depend on the argument order |
| Similarity.LemmaCosineSymmetric | biokgvec2go/flask_server.py:49-53 | `cosine(v1, v2) == cosine(v2, v1)` |
| Similarity.LemmaDotTruncates | biokgvec2go/flask_server.py:50 | `zip` pairs only up to the shorter vector, so the dot product equals that of both vectors cut to the shorter length |
| Similarity.LemmaTailOnlyAffectsNorm | biokgvec2go/flask_server.py:50-52 | extra components of the longer vector leave the dot product alone but add to its norm |
| Similarity.LemmaCosineExamples | biokgvec2go/flask_server.py:49-53 | orthogonal vectors score 0.0, vectors at 45 degrees score positive, a zero vector scores 0.0 |
| Ranking.Others | biokgvec2go/flask_server.py:206-207 | the loop visits only entries of the table, never the query key, and exactly the other keys |
| Ranking.LemmaOthersKeeps | biokgvec2go/flask_server.py:206-207 | every table entry whose key is not the query key is visited |
| Ranking.LemmaOthersAbsent | biokgvec2go/flask_server.py:206-207 | when the query key is not in the table, the loop visits the whole table in table order |
| Ranking.LemmaOthersRemovesOne | biokgvec2go/flask_server.py:206-207 | with distinct keys, the loop visits the table in table order with exactly the query key's entry removed |
| Ranking.LemmaDistinctTail | biokgvec2go/flask_server.py:206 | the rest of a dict without repeated keys has none either, and does not repeat the first key |
| Ranking.LemmaOthersLength | biokgvec2go/flask_server.py:206-207 | with distinct keys, exactly one entry is skipped when the query key is in the table and none otherwise |
| Ranking.InsertDescending | biokgvec2go/flask_server.py:209 | insertion into a descending list adds exactly one copy of the entry and keeps the list descending |
| Ranking.LemmaInsertStable | biokgvec2go/flask_server.py:209 | insertion puts the new entry ahead of every entry with an equal score and keeps their relative order |
| Ranking.SortDescending | biokgvec2go/flask_server.py:209 | `sort(reverse=True)` by score returns a permutation of the scores in non-increasing order |
| Ranking.LemmaWithScoreConcat | biokgvec2go/flask_server.py:209-210 | the entries with one score in a concatenation are those of the first part followed by those of the second |
| Ranking.LemmaSortStable | biokgvec2go/flask_server.py:209 | the sort is stable: entries with equal scores keep their table order |
| Ranking.SliceLength | biokgvec2go/flask_server.py:210 | the length of `s[:n]` never exceeds `len(s)` |
| Ranking.TopN | biokgvec2go/flask_server.py:209-210 | `sims[:top_n]` has Python's slice length, is in non-increasing order and is drawn from the scores |
| Ranking.LemmaDroppedInSuffix | biokgvec2go/flask_server.py:210 | an entry the slice dropped lies after the cut |
| Ranking.LemmaTopNKeepsBest | biokgvec2go/flask_server.py:209-210 | no entry left out of the top `n` scores higher than any entry kept |
| Ranking.LemmaTopNTiesInOrder | biokgvec2go/flask_server.py:209-210 | among entries with equal scores, the kept ones are the earliest in table order |
| Ranking.Neighbours | biokgvec2go/flask_server.py:205-210 | the neighbour list never contains the query key, holds only table keys and is in non-increasing score order |
| Ranking.LemmaNeighboursScored | biokgvec2go/flask_server.py:205-210 | with distinct keys, each listed score is the cosine of the query vector and the vector stored under the listed key |
| Ranking.LemmaNeighboursBest | biokgvec2go/flask_server.py:205-210 | no table entry other than the query key that is left out of the list scores above any listed entry |
| Ranking.LemmaNeighboursLength | biokgvec2go/flask_server.py:205-210 | for distinct keys that include the query key, the list has `min(n, len(table) - 1)` entries for `n >= 0`, and `max(0, len(table) - 1 + n)` for negative `n` |
| TieOrder.LemmaWithScoreMembers | biokgvec2go/flask_server.py:209 | the entries of one score are exactly the entries with that score |
| TieOrder.LemmaBeforeCons | biokgvec2go/flask_server.py:209 | an order between two entries of a list with a head either starts at the head or lies in the tail |
| TieOrder.LemmaBeforeWithScore | biokgvec2go/flask_server.py:209 | two entries of the same score keep their relative order among the entries of that score |
| TieOrder.LemmaBeforeOfWithScore | biokgvec2go/flask_server.py:209 | an order among the entries of one score is an order in the whole list |
| TieOrder.LemmaIndexOfDistinct | biokgvec2go/flask_server.py:206 | with distinct keys, a key's first position is its entry's position |
| TieOrder.LemmaOthersIndex | biokgvec2go/flask_server.py:206-207 | the entry at position `x` after skipping the query key sits at `x` in the table, or at `x + 1` past the query key |
| TieOrder.LemmaScoredInTableOrder | biokgvec2go/flask_server.py:206-208 | the scoring loop appends the scores in table order |
| TieOrder.LemmaTopNTiedBefore | biokgvec2go/flask_server.py:209-210 | two tied entries of `sims[:top_n]` appear in the same order in the unsorted scores |
| TieOrder.LemmaTiedPair | biokgvec2go/flask_server.py:206-210 | two listed neighbours with equal scores are in table order |
| TieOrder.LemmaNeighboursTiesInOrder | biokgvec2go/flask_server.py:206-210 | neighbours with equal scores are listed in table order, because the sort is stable and the slice keeps a prefix |
| TieOrder.LemmaNeighboursDistinct | biokgvec2go/flask_server.py:206-210 | with distinct table keys, no neighbour is listed twice |
| TieOrder.LemmaListedMember | biokgvec2go/flask_server.py:210 | an entry of the ranking makes its key listed |
| TieOrder.LemmaLeftOutAfter | biokgvec2go/flask_server.py:209-210 | a score left out of `sims[:top_n]` that ties with a kept one came after it among the unsorted scores |
| TieOrder.LemmaLeftOutTie | biokgvec2go/flask_server.py:205-210 | one table entry left out although it ties with a listed neighbour lies later in the table than that neighbour |
| TieOrder.LemmaTieAtCut | biokgvec2go/flask_server.py:205-210 | when several entries tie at the `top_n` cut, the ones kept are those that come first in the table |
| Ranking.LemmaScenarioScores | biokgvec2go/flask_server.py:206-208 | in the table {A:[1,0], B:[0,1], C:[1,1]} with query A, B scores 0.0 and C a positive score, in table order |
| Ranking.LemmaSortPair | biokgvec2go/flask_server.py:209 | two entries in increasing score order come out swapped |
| Ranking.LemmaNeighboursScenario | biokgvec2go/flask_server.py:205-210 | in the same table, the top two neighbours of A are C with a positive score, then B with 0.0 |
| Registry.LoadEntry | biokgvec2go/flask_server.py:31-43 | a file registers a model exactly when its extension is `.kv` (any case) and the vector loader succeeds, or `.json` (any case) and `json.load` succeeds; it registers under its `splitext` stem, and the model it registers is the vector loader's table for a `.kv` file and the loaded JSON document otherwise |
| Registry.LemmaLoadIntoGet | biokgvec2go/flask_server.py:29-39 | each name holds the model of the last file in listing order that loaded under it, or its earlier value if none did |
| Registry.LemmaLoadIntoDistinct | biokgvec2go/flask_server.py:29-39 | the scan never registers a name twice |
| Registry.LemmaLastLoadedNone | biokgvec2go/flask_server.py:29-39 | no model comes from the listing for a name exactly when no file loads under that name |
| Registry.LemmaLastLoadedSome | biokgvec2go/flask_server.py:29-39 | a model that came from the listing is the one of the last file that loads under its name |
| Registry.LemmaLoadModels | biokgvec2go/flask_server.py:28-45 | after start-up the names are distinct; a name is registered exactly when the directory exists and some file loads under it; it holds the model of the last such file |
| Registry.LemmaLoadIntoAppend | biokgvec2go/flask_server.py:29-43 | scanning a listing split in two is scanning the first part, then the second |
| Registry.LemmaFailedFileOmitted | biokgvec2go/flask_server.py:32-43 | a skipped file or one whose loader raises leaves the registry exactly as if it were not in the listing |
| Registry.ModelList | biokgvec2go/flask_server.py:94-96 | `sorted(loaded_models.keys())` lists every registered name exactly once, in strictly ascending order |
| Registry.LemmaDistinctAfterPermutation | biokgvec2go/flask_server.py:96 | a permutation of a duplicate-free list is duplicate-free |
| Registry.LemmaNoDuplicatesCount | biokgvec2go/flask_server.py:96 | a duplicate-free list holds each element at most once |
| Registry.LemmaLoadEntryBroken | biokgvec2go/flask_server.py:36-43 | a `.json` file that fails to parse registers nothing |
| Registry.LemmaLoadEntryNoExtension | biokgvec2go/flask_server.py:40-41 | a file without an extension is skipped even when it would parse |
| Registry.LemmaLoadEntryValid | biokgvec2go/flask_server.py:36-39 | `GO_RDF2Vec.json` registers its document under `GO_RDF2Vec` |
| Registry.LemmaLoadExamples | biokgvec2go/flask_server.py:29-43 | a broken file and a `README` leave the registry unchanged; a valid JSON file adds its model |
| Queries.Resolve | biokgvec2go/flask_server.py:112-120 | a raw id with the ontology prefix becomes the OBO IRI without any lookup; any other raw id resolves exactly when its normalised form is a key of the label dictionary, to that key's value; otherwise the lookup raises `KeyError` for the normalised key |
| Queries.DisplayLabel | biokgvec2go/flask_server.py:132-133 | a display label exists exactly when the URI is labelled; otherwise `KeyError` for the URI |
| Queries.PairScore | biokgvec2go/flask_server.py:122-130 | scoring fails only with the handler's 400 message or with a crash inside `cosine`, and it crashes only when the model is a JSON label document |
| Queries.FormatWith | biokgvec2go/flask_server.py:212-216 | the response exists exactly when every neighbour is labelled; entry `i` shows `labels[k] + " [" + k.split("/")[-1] + "]"` for the `i`-th neighbour `k`, links to `k` and carries its score; otherwise `KeyError` for an unlabelled key |
| Queries.FormatNeighbours | biokgvec2go/flask_server.py:212-216 | an empty neighbour list gives an empty response without reading the label dictionary; otherwise the response exists exactly when the dictionary exists and labels every neighbour, and then lists each neighbour with its display label, link and score |
| Queries.LemmaAllLabelledCons | biokgvec2go/flask_server.py:213-215 | every neighbour is labelled exactly when the first one is and all the rest are |
| Queries.LemmaListsCons | biokgvec2go/flask_server.py:213-215 | prefixing the first neighbour's entry, with its display label, to a response for the rest gives a response for the whole list |
| Queries.LemmaGoChecksModelFirst | biokgvec2go/flask_server.py:104-110 | an unknown GO model is a 404 whatever the ids are |
| Queries.LemmaGoResolvesAfterModel | biokgvec2go/flask_server.py:104-143 | once the GO model exists, a failure to resolve either id is the handler's reply (a 500 for an unknown label); otherwise the reply is the score and display labels of the two resolved ids |
| Queries.LemmaHpResolvesFirst | biokgvec2go/flask_server.py:145-161 | the HP similarity handler reports a resolution failure before an unknown model, and a 404 only once both ids resolve |
| Queries.LemmaErrorOrderDiffers | biokgvec2go/flask_server.py:104-161 | with an empty registry and a free-text id, GO answers 404 but HP fails with a missing `HP_Labels` (500) |
| Queries.LemmaMissingIdIsBadRequest | biokgvec2go/flask_server.py:126-129 | either resolved id absent from a JSON vector model is a 400 with the "IDs not found" message |
| Queries.LemmaKvMissingIdIsBadRequest | biokgvec2go/flask_server.py:122-124 | either resolved id outside the key set of a `.kv` model is a 400 with the "IDs not found" message |
| Queries.LemmaKvScore | biokgvec2go/flask_server.py:122-125 | on a `.kv` model with both ids present, a reply carries the similarity the vector library reports |
| Queries.LemmaClosestChecksModelFirst | biokgvec2go/flask_server.py:185-193 | both neighbour handlers answer 404 for an unknown model whatever the key and `top_n` are |
| Queries.LemmaPrefixedIdDisplay | biokgvec2go/flask_server.py:112-133 | a prefixed id resolves to its OBO IRI, and its display label is the dictionary label followed by the raw id in brackets |
| Queries.LemmaSimilarityReply | biokgvec2go/flask_server.py:104-137 | for two prefixed ids on a JSON vector model, the reply exists exactly when both IRIs are in the table and in the label dictionary; it carries both display labels, both IRIs and the cosine of the stored vectors |
| Queries.LemmaSimilaritySymmetric | biokgvec2go/flask_server.py:104-137 | swapping the two ids succeeds exactly when the original succeeds, swaps labels and URLs, and keeps the similarity |
| Queries.LemmaReplyFor | biokgvec2go/flask_server.py:122-137 | past the model check and resolution, a reply exists exactly when the pair scores and both ids are labelled |
| Queries.LemmaPairScoreSwap | biokgvec2go/flask_server.py:126-130 | on a JSON vector table the score and the 400 answer do not depend on the order of the ids |
| Queries.LemmaReplySwap | biokgvec2go/flask_server.py:122-137 | scoring and labelling treat the two ids alike on a JSON vector model |
| Queries.LemmaClosestMissingKey | biokgvec2go/flask_server.py:202-204 | a resolved key absent from a JSON vector model is a 400 with the handler's own message |
| Queries.LemmaRankedReply | biokgvec2go/flask_server.py:202-216 | a successful ranking of a table with distinct keys is a neighbour reply for the key: the key is in the table and never listed, every link is another table key whose similarity is the cosine of the two stored vectors, scores do not increase, no link is listed twice, links with equal similarity follow table order, no omitted entry scores above a listed one, an omitted entry tied with a listed one comes later in the table, `min(n, len(table) - 1)` entries for `n >= 0`; each entry shows its link's label |
| Queries.LemmaListsFields | biokgvec2go/flask_server.py:213-215 | each response entry links to its ranked key with that key's score, and shows the key's label followed by its last path segment in brackets |
| Queries.LemmaReplyOfRanking | biokgvec2go/flask_server.py:213-216 | a response whose links and similarities are those of a ranking carries each of the ranking's guarantees over to the response: other table keys only, cosine scores, descending order, no repeated link, ties in table order, nothing better left out, ties at the cut resolved in table order, the `top_n` length |
| Queries.LemmaNeighboursRanking | biokgvec2go/flask_server.py:202-210 | the ranked neighbours of a key of a table with distinct keys are other table keys scored by cosine, in descending order, without repeats, ties in table order, nothing better left out, an entry left out that ties with a kept one later in the table, `min(n, len(table) - 1)` of them for `n >= 0` |
| Queries.LemmaFormattedRanking | biokgvec2go/flask_server.py:211-216 | formatting such a ranking, when it succeeds, gives a neighbour reply whose entries show their labels |
| Queries.LemmaLinksToListed | biokgvec2go/flask_server.py:213-215 | a response built entry by entry from the ranking links to exactly the ranked keys |
| Queries.LemmaClosestOnVectors | biokgvec2go/flask_server.py:185-216 | on a JSON vector model a neighbour query is resolution followed by the ranking of the table with `top_n` defaulting to 10 |
| Queries.LemmaClosestReply | biokgvec2go/flask_server.py:185-216 | a successful neighbour reply from a JSON vector model with distinct keys has a resolving key, and is a neighbour reply for it in the sense above (no repeated link, ties in table order, nothing better left out, ties at the cut resolved in table order) with `top_n` defaulting to 10; each entry shows its link's label and last segment |
| Queries.LemmaLabelScenario | biokgvec2go/flask_server.py:112-120 | with a GO label dictionary only, `Cell_Division` and `GO_0051301` both resolve to the GO IRI, `Mitosis` fails on the key `mitosis`, and any HP label fails on the missing `HP_Labels` |
| Queries.LemmaScenarioDictionaries | biokgvec2go/flask_server.py:115-120 | a registry holding only `GO_Labels` yields the GO dictionary and no HP dictionary |
| Rdf.LemmaOboIriPasses | run_rdf2vec.py:33 | an OBO IRI whose local name starts with the prefix passes the `startswith("http") and prefix in uri` filter |
| LabelExtraction.ExtractLabels | extract_labels.py:8-13 | a key is in the dictionary exactly when some label triple with a passing subject writes it, as its subject or as its normalised label |
| LabelExtraction.LemmaLastWriteWins | extract_labels.py:9-13 | when no later triple overwrites them, a term's IRI maps to its normalised label and the label back to the IRI, so the two lookups invert each other |
| LabelExtraction.LemmaLastWriter | extract_labels.py:9-13 | key by key, the entry for `k` is set by the last label triple that writes `k`: its normalised label when `k` is its subject, its subject when `k` is its label |
| LabelExtraction.LemmaAddLabelKeeps | extract_labels.py:12-13 | a triple that does not write a key leaves that key's entry unchanged |
| LabelExtraction.LemmaKeysNormalised | extract_labels.py:10-13 | every key is either an IRI that passes the filter or a label already in normal form without `_` |
| LabelExtraction.LemmaOtherTriplesIgnored | extract_labels.py:9-10 | triples with no passing label leave the dictionary empty |
| LabelExtraction.LemmaSingleLabel | extract_labels.py:8-13 | one GO term labelled `Cell_Division` yields exactly the two entries between its IRI and `cell division` |
| EntityExtraction.ExtractEntities | run_rdf2vec.py:25-38 | the entity list has no duplicates, and a node is listed exactly when it is the subject or object of some triple and passes the prefix filter |
| EntityExtraction.EmbeddingDocument | run_rdf2vec.py:74-76 | the output document has distinct keys, and they are the entities paired by `zip` |
| EntityExtraction.LemmaEmbeddingDocumentZip | run_rdf2vec.py:74-76 | for distinct entities the document is the `zip` itself, pair by pair and in order |
| EntityExtraction.LemmaEmbeddingLookup | run_rdf2vec.py:74-76 | each entity that has an embedding finds that embedding in the document |
| EntityExtraction.RunEmbeddings | run_rdf2vec.py:57-85 | a document is produced exactly when the ontology file exists and the ontology is GO or HP; it is the output loop applied to a duplicate-free list of exactly the nodes passing the ontology's filter and to the trainer's embeddings of that list; its keys are distinct and mentioned in the graph |
| Pipeline.LemmaExtractedLabelResolves | biokgvec2go/flask_server.py:112-133 | against a label dictionary written by the label script, a free-text query whose normal form is a term's label resolves to that term's IRI, and the IRI displays as the normalised label followed by its last segment |
| Pipeline.LemmaEntityEmbedding | run_rdf2vec.py:74-76 | every key of an exported document is an entity found at some position, and maps to the embedding at that position |
| Pipeline.LemmaExportedModelNeighbours | biokgvec2go/flask_server.py:185-216 | on a model written by the embedding script with one embedding per entity, a successful neighbour reply is a neighbour reply for the resolved entity (no repeated link, ties in table order, also at the `top_n` cut), and each similarity is the cosine of the embeddings of the query entity and of a different listed entity |

## Left out

- HTTP and JSON transport: Flask routing, `request.get_json`, `jsonify`, the HTML pages and the download routes. A handler takes the request fields as arguments and returns the reply or the failure.
- Validation of request bodies: a missing `model`, `id1`, `id2` or `key` field, or a `top_n` that `int()` cannot convert (such as the string `"2.5"`), raises inside the handler; the model takes these fields already typed.
- A fractional JSON number for `top_n` is truncated toward zero by `int()` (2.5 becomes 2) without an error; the model takes `top_n` as an integer and does not model that conversion.
- Logging and `print` output in every file. These have no effect on results.
- The file system: `os.path.isdir` and `os.listdir` become the inputs `dirExists` and `listing`. The listing order is arbitrary, so it is an input too. What each loader would return for a file is part of its directory entry.
- The foreign vector library (`KeyedVectors`): a `.kv` table is known only by its key set and the similarity it reports. Neighbour queries on a `.kv` model end in `Crashed(UnmodelledForeignTable)`, because the library's lookup is not part of this model.
- Similarity.Cosine: floats are modelled as reals and `math.sqrt` is an abstract function known only to map 0 to 0 and positives to positives. As a result the model does not prove a self-similarity of 1, the range [-1, 1], or the sign of the score.
- Text.Lower: `str.lower` is modelled for ASCII letters only; other characters are unchanged.
- Queries.PairScore: a label document used as a vector table is treated as a crash in `cosine`. The case where the looked-up labels are both empty strings, in which Python would return 0.0, is not modelled.
- Queries.Closest: on a label document the model crashes as soon as another key exists. It does not model the corner where empty-string labels make `cosine` return 0.0.
- Queries.LabelDictionary: a `*_Labels` entry that is not a label document counts as a crash when it is consulted. The model does not follow Python indexing into a vector table or a `.kv` model under that name.
- JSON documents of other shapes, such as lists or nested values, are not modelled. A model document is either a key-to-vector table or a string-to-string map.
- The key order of a label dictionary is not modelled (it is a `map`), because no query depends on it.
- EntityExtraction.ExtractEntities: `list(set(...))` has a hash-dependent order. The model lists entities in order of first mention, and its contract does not depend on the order.
- RDF parsing with rdflib is not modelled: a graph is the sequence of its triples with each node already converted by `str(...)`.
- The RDF2Vec trainer is not modelled: `train_and_embed` is the parameter `embed`, and its exceptions are not modelled.
- EntityExtraction.RunEmbeddings: the output is a value, not a written file. An exception raised by the trainer or by writing is not modelled. Any ontology other than GO or HP produces no output, as the unbound `entities` makes the handler log the exception.
- `run_pykeen_models.py` and the rest of `run_rdf2vec.py` (argument handling, paths, `check_path` beyond file existence) are not part of this model.

=== FILE: basics.dfy ===
/** Small shared vocabulary: an optional value and duplicate-freedom of a sequence. */
module Basics {

  /** A value that may be absent; Python's `None` versus a present value. */
  datatype Option<+T> = None | Some(value: T) {
    function GetOr(default: T): T {
      match this
      case Some(v) => v
      case None => default
    }
  }

  /** No element occurs twice. */
  predicate NoDuplicates<T(==)>(s: seq<T>) {
    forall i, j :: 0 <= i < j < |s| ==> s[i] != s[j]
  }

  /** A duplicate-free sequence splits into duplicate-free parts that share no element. */
  lemma LemmaNoDuplicatesSplit<T>(s: seq<T>, n: nat)
    requires n <= |s| && NoDuplicates(s)
    ensures NoDuplicates(s[..n]) && NoDuplicates(s[n..])
    ensures forall x :: x in s[..n] ==> x !in s[n..]
  {
  }
}

=== FILE: dicts.dfy ===
/**
 Python dictionaries keep their keys in insertion order, and that order is
 observable here: the loader's registry, the JSON vector tables and the
 embedding documents are all iterated in it. A string-keyed dictionary is
 therefore modelled as a sequence of key/value pairs; assigning to a present
 key replaces its value in place, assigning to a new key appends it.
 */
module Dicts {
  import opened Basics

  type Dict<V> = seq<(string, V)>

  function Keys<V>(d: Dict<V>): (ks: seq<string>)
    ensures |ks| == |d|
    ensures forall i :: 0 <= i < |d| ==> ks[i] == d[i].0
  {
    seq(|d|, i requires 0 <= i < |d| => d[i].0)
  }

  predicate DistinctKeys<V>(d: Dict<V>) {
    NoDuplicates(Keys(d))
  }

  /** Position of the first occurrence of `k`. */
  function IndexOf(ks: seq<string>, k: string): (i: nat)
    requires k in ks
    ensures i < |ks| && ks[i] == k
    ensures forall j :: 0 <= j < i ==> ks[j] != k
  {
    if ks[0] == k then 0 else 1 + IndexOf(ks[1..], k)
  }

  lemma LemmaIndexOfAppend(ks: seq<string>, extra: seq<string>, k: string)
    requires k in ks
    ensures IndexOf(ks + extra, k) == IndexOf(ks, k)
  {
    if ks[0] != k {
      assert (ks + extra)[1..] == ks[1..] + extra;
      LemmaIndexOfAppend(ks[1..], extra, k);
    }
  }

  /** `d.get(k)`: the value stored under `k`, or None. */
  function Get<V>(d: Dict<V>, k: string): (r: Option<V>)
    ensures r.None? <==> k !in Keys(d)
    ensures r.Some? ==> exists i :: 0 <= i < |d| && d[i].0 == k && d[i].1 == r.value
  {
    if k in Keys(d) then Some(d[IndexOf(Keys(d), k)].1) else None
  }

  /** With distinct keys, looking up the key of an entry finds that entry's value. */
  lemma LemmaGetDistinct<V>(d: Dict<V>, i: int)
    requires DistinctKeys(d) && 0 <= i < |d|
    ensures Get(d, d[i].0) == Some(d[i].1)
  {
    assert Keys(d)[i] == d[i].0;
  }

  /** `d[k] = v`. */
  function Put<V>(d: Dict<V>, k: string, v: V): (r: Dict<V>)
    ensures k in Keys(d) ==> Keys(r) == Keys(d)
    ensures k !in Keys(d) ==> r == d + [(k, v)]
    ensures Get(r, k) == Some(v)
    ensures forall k' :: k' != k ==> Get(r, k') == Get(d, k')
  {
    if k in Keys(d) then
      var r := d[IndexOf(Keys(d), k) := (k, v)];
      assert Keys(r) == Keys(d);
      r
    else
      var r := d + [(k, v)];
      assert Keys(r) == Keys(d) + [k];
      forall k' | k' in Keys(d) ensures IndexOf(Keys(r), k') == IndexOf(Keys(d), k') {
        LemmaIndexOfAppend(Keys(d), [k], k');
      }
      r
  }

  lemma LemmaPutKeys<V>(d: Dict<V>, k: string, v: V)
    ensures forall k' :: k' in Keys(Put(d, k, v)) <==> k' in Keys(d) || k' == k
    ensures DistinctKeys(d) ==> DistinctKeys(Put(d, k, v))
  {
    if k !in Keys(d) {
      assert Keys(Put(d, k, v)) == Keys(d) + [k];
    }
  }

  /** The dictionary obtained by assigning the pairs in turn to an empty one. */
  function FromPairs<V>(pairs: Dict<V>): (r: Dict<V>)
    ensures DistinctKeys(r)
    ensures forall k :: k in Keys(r) <==> k in Keys(pairs)
    decreases |pairs|
  {
    if |pairs| == 0 then []
    else
      var front := pairs[..|pairs| - 1];
      var last := pairs[|pairs| - 1];
      assert Keys(pairs) == Keys(front) + [last.0];
      LemmaPutKeys(FromPairs(front), last.0, last.1);
      Put(FromPairs(front), last.0, last.1)
  }

  /** One step of the fold. */
  lemma LemmaFromPairsStep<V>(pairs: Dict<V>)
    requires |pairs| > 0
    ensures FromPairs(pairs) == Put(FromPairs(pairs[..|pairs| - 1]), pairs[|pairs| - 1].0, pairs[|pairs| - 1].1)
  {
  }

  /** Dropping the last pair of a dictionary with distinct keys leaves distinct keys, none of them the dropped one. */
  lemma LemmaDistinctLast<V>(pairs: Dict<V>)
    requires |pairs| > 0 && DistinctKeys(pairs)
    ensures DistinctKeys(pairs[..|pairs| - 1])
    ensures pairs[|pairs| - 1].0 !in Keys(pairs[..|pairs| - 1])
  {
    var ks := Keys(pairs);
    assert Keys(pairs[..|pairs| - 1]) == ks[..|pairs| - 1];
    assert [pairs[|pairs| - 1].0] == ks[|pairs| - 1..];
    LemmaNoDuplicatesSplit(ks, |pairs| - 1);
  }

  /** Pairs whose keys are already distinct come out unchanged, in the same order. */
  lemma {:induction false} LemmaFromPairsDistinct<V>(pairs: Dict<V>)
    requires DistinctKeys(pairs)
    ensures FromPairs(pairs) == pairs
    decreases |pairs|
  {
    if |pairs| > 0 {
      var front := pairs[..|pairs| - 1];
      var last := pairs[|pairs| - 1];
      LemmaDistinctLast(pairs);
      LemmaFromPairsDistinct(front);
      LemmaFromPairsStep(pairs);
      assert (last.0, last.1) == last;
      assert pairs == front + [last];
    }
  }
}

=== FILE: entityextraction.dfy ===
/**
 The RDF2Vec export script: the entities of an ontology are every node
 (subject or object, any predicate) that passes the prefix filter, each
 listed once; the output document pairs them with their embeddings.
 */
module EntityExtraction {
  import opened Basics
  import opened Dicts
  import opened Rdf
  import opened Similarity

  /** `x` is one of the two nodes of `t` and passes the filter. */
  predicate Mentions(t: Triple, x: string, prefix: string) {
    (t.subject == x || t.value == x) && IsPrefixedIri(x, prefix)
  }

  /**
   `extract_entities_rdf`: a set of the matching nodes turned into a list.
   The list order of a Python set is a hash order; here the entities appear
   in order of first mention.
   */
  method ExtractEntities(triples: seq<Triple>, prefix: string) returns (entities: seq<string>)
    ensures NoDuplicates(entities)
    ensures forall x :: x in entities <==> exists i :: 0 <= i < |triples| && Mentions(triples[i], x, prefix)
  {
    entities := [];
    var i := 0;
    while i < |triples|
      invariant 0 <= i <= |triples|
      invariant NoDuplicates(entities)
      invariant forall x :: x in entities <==> exists j :: 0 <= j < i && Mentions(triples[j], x, prefix)
    {
      var t := triples[i];
      if IsPrefixedIri(t.subject, prefix) && t.subject !in entities {
        entities := entities + [t.subject];
      }
      if IsPrefixedIri(t.value, prefix) && t.value !in entities {
        entities := entities + [t.value];
      }
      i := i + 1;
    }
  }

  /** `zip(entities, embeddings)`: pairs up to the shorter list. */
  function Zip(entities: seq<string>, embeddings: seq<Vector>): Dict<Vector> {
    seq(Min(|entities|, |embeddings|), i requires 0 <= i < Min(|entities|, |embeddings|) => (entities[i], embeddings[i]))
  }

  /** The output loop: `output[ent] = emb` for each pair of the zip. */
  function EmbeddingDocument(entities: seq<string>, embeddings: seq<Vector>): (r: Dict<Vector>)
    ensures DistinctKeys(r)
    ensures forall k :: k in Keys(r) <==> k in entities[..Min(|entities|, |embeddings|)]
  {
    var pairs := Zip(entities, embeddings);
    assert Keys(pairs) == entities[..Min(|entities|, |embeddings|)];
    FromPairs(pairs)
  }

  /** With distinct entities the document is the zip itself, pair for pair, in order. */
  lemma LemmaEmbeddingDocumentZip(entities: seq<string>, embeddings: seq<Vector>)
    requires NoDuplicates(entities)
    ensures var r := EmbeddingDocument(entities, embeddings);
      |r| == Min(|entities|, |embeddings|) &&
      forall i :: 0 <= i < |r| ==> r[i] == (entities[i], embeddings[i])
  {
    var pairs := Zip(entities, embeddings);
    assert forall i :: 0 <= i < |pairs| ==> Keys(pairs)[i] == entities[i];
    LemmaFromPairsDistinct(pairs);
  }

  /** The entities in the order given, and the embedding lookup every similarity query uses. */
  lemma LemmaEmbeddingLookup(entities: seq<string>, embeddings: seq<Vector>, i: nat)
    requires NoDuplicates(entities)
    requires i < |entities| && i < |embeddings|
    ensures Get(EmbeddingDocument(entities, embeddings), entities[i]) == Some(embeddings[i])
  {
    var r := EmbeddingDocument(entities, embeddings);
    LemmaEmbeddingDocumentZip(entities, embeddings);
    assert Keys(r)[i] == entities[i];
    var j := IndexOf(Keys(r), entities[i]);
    assert r[j] == (entities[j], embeddings[j]);
  }

  /**
   `run_embeddings`. The input check, the trainer and the JSON file are
   outside the model: `fileExists` says whether the ontology file was found
   and `embed` stands for the trainer. An ontology name other than GO or HP
   leaves the entity list unbound; the exception is logged and nothing is
   written.
   */
  method RunEmbeddings(ontology: string, fileExists: bool, triples: seq<Triple>, embed: seq<string> -> seq<Vector>)
    returns (output: Option<Dict<Vector>>)
    ensures output.Some? <==> fileExists && (ontology == "GO" || ontology == "HP")
    ensures output.Some? ==> exists entities ::
      && NoDuplicates(entities)
      && (forall x :: x in entities <==> exists i :: 0 <= i < |triples| && Mentions(triples[i], x, ontology + "_"))
      && output.value == EmbeddingDocument(entities, embed(entities))
    ensures output.Some? ==> DistinctKeys(output.value)
    ensures output.Some? ==> forall k :: k in Keys(output.value) ==>
      exists i :: 0 <= i < |triples| && Mentions(triples[i], k, ontology + "_")
  {
    if !fileExists || (ontology != "GO" && ontology != "HP") {
      return None;
    }
    var entities := ExtractEntities(triples, ontology + "_");
    var embeddings := embed(entities);
    var document := EmbeddingDocument(entities, embeddings);
    assert forall k :: k in entities[..Min(|entities|, |embeddings|)] ==> k in entities;
    output := Some(document);
    assert output.value == EmbeddingDocument(entities, embed(entities));
  }
}

=== FILE: labelextraction.dfy ===
/**
 `extract_iri_label_dict`: the two-way label dictionary written to
 `GO_Labels.json` / `HP_Labels.json`. Every `rdfs:label` triple whose subject
 passes the prefix filter maps its normalised label to the subject IRI and
 the IRI back to the normalised label; a later triple overwrites an earlier
 one.
 */
module LabelExtraction {
  import opened Text
  import opened Rdf

  /** The triple contributes to the dictionary. */
  predicate IsLabelTriple(t: Triple, prefix: string) {
    t.property == RdfsLabel && IsPrefixedIri(t.subject, prefix)
  }

  /** The triple writes key `k`: its subject or its normalised label. */
  predicate Writes(t: Triple, prefix: string, k: string) {
    IsLabelTriple(t, prefix) && (k == t.subject || k == Normalize(t.value))
  }

  /** One loop iteration. */
  function AddLabel(d: map<string, string>, t: Triple, prefix: string): map<string, string> {
    if IsLabelTriple(t, prefix) then
      var standard := Normalize(t.value);
      d[standard := t.subject][t.subject := standard]
    else d
  }

  /** The dictionary after all triples, in graph order. */
  function ExtractLabels(triples: seq<Triple>, prefix: string): (d: map<string, string>)
    ensures forall k :: k in d <==> exists i :: 0 <= i < |triples| && Writes(triples[i], prefix, k)
    decreases |triples|
  {
    if |triples| == 0 then map[]
    else
      var front := triples[..|triples| - 1];
      var d := AddLabel(ExtractLabels(front, prefix), triples[|triples| - 1], prefix);
      assert forall i :: 0 <= i < |front| ==> front[i] == triples[i];
      d
  }

  /**
   The last triple that writes either of its two keys decides both entries:
   the IRI maps to the normalised label and the label back to the IRI, so
   the two lookups are inverse on them.
   */
  lemma {:induction false} LemmaLastWriteWins(triples: seq<Triple>, prefix: string, i: nat)
    requires i < |triples| && IsLabelTriple(triples[i], prefix)
    requires forall j :: i < j < |triples| ==>
      !Writes(triples[j], prefix, triples[i].subject) && !Writes(triples[j], prefix, Normalize(triples[i].value))
    ensures var d := ExtractLabels(triples, prefix);
      var iri, name := triples[i].subject, Normalize(triples[i].value);
      iri in d && name in d && d[iri] == name && d[name] == iri && d[d[iri]] == iri && d[d[name]] == name
    decreases |triples|
  {
    var front := triples[..|triples| - 1];
    var last := triples[|triples| - 1];
    LemmaExtractStep(triples, prefix);
    if i < |triples| - 1 {
      assert front[i] == triples[i];
      forall j | i < j < |front|
        ensures !Writes(front[j], prefix, front[i].subject) && !Writes(front[j], prefix, Normalize(front[i].value))
      {
        assert front[j] == triples[j];
      }
      LemmaLastWriteWins(front, prefix, i);
      LemmaAddLabelKeeps(ExtractLabels(front, prefix), last, prefix, triples[i].subject);
      LemmaAddLabelKeeps(ExtractLabels(front, prefix), last, prefix, Normalize(triples[i].value));
    }
  }

  /**
   Last write wins, key by key: the entry for `k` is set by the last triple
   that writes `k` — its normalised label when `k` is its subject, and its
   subject when `k` is its label.
   */
  lemma {:induction false} LemmaLastWriter(triples: seq<Triple>, prefix: string, i: nat, k: string)
    requires i < |triples| && Writes(triples[i], prefix, k)
    requires forall j :: i < j < |triples| ==> !Writes(triples[j], prefix, k)
    ensures var d := ExtractLabels(triples, prefix);
      k in d && d[k] == if k == triples[i].subject then Normalize(triples[i].value) else triples[i].subject
    decreases |triples|
  {
    var front := triples[..|triples| - 1];
    var last := triples[|triples| - 1];
    LemmaExtractStep(triples, prefix);
    if i < |triples| - 1 {
      assert front[i] == triples[i];
      forall j | i < j < |front| ensures !Writes(front[j], prefix, k) {
        assert front[j] == triples[j];
      }
      LemmaLastWriter(front, prefix, i, k);
      LemmaAddLabelKeeps(ExtractLabels(front, prefix), last, prefix, k);
    }
  }

  /** One step of the fold. */
  lemma LemmaExtractStep(triples: seq<Triple>, prefix: string)
    requires |triples| > 0
    ensures ExtractLabels(triples, prefix) == AddLabel(ExtractLabels(triples[..|triples| - 1], prefix), triples[|triples| - 1], prefix)
  {
  }

  /** A triple that does not write `k` leaves its entry as it was. */
  lemma LemmaAddLabelKeeps(d: map<string, string>, t: Triple, prefix: string, k: string)
    requires !Writes(t, prefix, k)
    ensures k in AddLabel(d, t, prefix) <==> k in d
    ensures k in d ==> AddLabel(d, t, prefix)[k] == d[k]
  {
  }

  /**
   Every key is either an IRI that passes the prefix filter or already in
   normal form, so a lookup with a normalised string finds exactly the label
   keys.
   */
  lemma LemmaKeysNormalised(triples: seq<Triple>, prefix: string)
    ensures forall k :: k in ExtractLabels(triples, prefix) ==> IsPrefixedIri(k, prefix) || (Normalize(k) == k && '_' !in k)
  {
    var d := ExtractLabels(triples, prefix);
    forall k | k in d ensures IsPrefixedIri(k, prefix) || (Normalize(k) == k && '_' !in k) {
      var i :| 0 <= i < |triples| && Writes(triples[i], prefix, k);
      LemmaNormalizeIdempotent(triples[i].value);
      LemmaNormalizeHasNoUnderscore(triples[i].value);
    }
  }

  /** Triples with another predicate, or a subject outside the prefix, leave the dictionary empty. */
  lemma LemmaOtherTriplesIgnored(triples: seq<Triple>, prefix: string)
    requires forall i :: 0 <= i < |triples| ==> !IsLabelTriple(triples[i], prefix)
    ensures ExtractLabels(triples, prefix) == map[]
  {
    var d := ExtractLabels(triples, prefix);
    assert forall k :: k !in d;
  }

  /** One GO term labelled "Cell_Division": both directions are written, the label in normal form. */
  lemma LemmaSingleLabel(iri: string)
    requires iri == OboBase + "GO_0051301"
    ensures ExtractLabels([Triple(iri, RdfsLabel, "Cell_Division")], "GO_") == map["cell division" := iri, iri := "cell division"]
  {
    var t := Triple(iri, RdfsLabel, "Cell_Division");
    assert StartsWith("GO_0051301", "GO_");
    LemmaOboIriPasses("GO_0051301", "GO_");
    assert IsLabelTriple(t, "GO_");
    LemmaNormalizeCaseAndUnderscore();
    assert [t][..0] == [];
    assert ExtractLabels([t], "GO_") == AddLabel(map[], t, "GO_");
  }
}

=== FILE: pipeline.dfy ===
/**
 How the offline exports meet the server: the label dictionary written by
 the label script is what the resolver and the display labels read, and an
 embedding document written by the export script is a vector table with
 distinct keys.
 */
module Pipeline {
  import opened Basics
  import opened Dicts
  import opened Text
  import opened Rdf
  import opened Similarity
  import opened Registry
  import opened Queries
  import opened LabelExtraction
  import opened EntityExtraction

  /**
   A free-text query whose normal form is the label of a term resolves to
   that term's IRI, and the term's display label is its normalised label
   followed by the IRI's last segment — provided no later label triple
   overwrote either entry.
   */
  lemma LemmaExtractedLabelResolves(models: Models, ont: Ontology, triples: seq<Triple>, i: nat, raw: string)
    requires i < |triples| && IsLabelTriple(triples[i], ont.Prefix())
    requires forall j :: i < j < |triples| ==>
      !Writes(triples[j], ont.Prefix(), triples[i].subject) && !Writes(triples[j], ont.Prefix(), Normalize(triples[i].value))
    requires Get(models, ont.LabelsName()) == Some(JsonModel(LabelDocument(ExtractLabels(triples, ont.Prefix()))))
    requires !StartsWith(raw, ont.Prefix()) && Normalize(raw) == Normalize(triples[i].value)
    ensures Resolve(models, ont, raw) == Ok(triples[i].subject)
    ensures DisplayLabel(ExtractLabels(triples, ont.Prefix()), triples[i].subject) ==
      Ok(Normalize(triples[i].value) + " [" + LastSegment(triples[i].subject) + "]")
  {
    var labels := ExtractLabels(triples, ont.Prefix());
    var iri, name := triples[i].subject, Normalize(triples[i].value);
    LemmaLastWriteWins(triples, ont.Prefix(), i);
    assert name in labels && labels[name] == iri;
    assert iri in labels && labels[iri] == name;
    assert LabelDictionary(models, ont) == Ok(labels);
  }

  /**
   A neighbour query against a model exported by the embedding script, with
   one embedding per entity: the query resolves to an entity, the reply is a
   neighbour reply in that document, every link is another entity, and each
   similarity is the cosine of the two entities' embeddings.
   */
  lemma LemmaExportedModelNeighbours(models: Models, ont: Ontology, model: string, rawKey: string, topN: Option<int>,
                                     entities: seq<string>, embeddings: seq<Vector>)
    requires NoDuplicates(entities) && |embeddings| == |entities|
    requires ont.Prefix() + model in Keys(models)
    requires Get(models, ont.Prefix() + model) == Some(JsonModel(VectorDocument(EmbeddingDocument(entities, embeddings))))
    ensures var r := Closest(models, ont, model, rawKey, topN);
      r.Ok? ==>
        Resolve(models, ont, rawKey).Ok? &&
        IsNeighbourReply(r.value, EmbeddingDocument(entities, embeddings), Resolve(models, ont, rawKey).value, topN.GetOr(DefaultTopN)) &&
        (forall i :: 0 <= i < |r.value| ==> exists a, b ::
          0 <= a < |entities| && 0 <= b < |entities| && a != b &&
          entities[a] == Resolve(models, ont, rawKey).value && entities[b] == r.value[i].link &&
          r.value[i].similarity == Cosine(embeddings[a], embeddings[b]))
  {
    var table := EmbeddingDocument(entities, embeddings);
    var r := Closest(models, ont, model, rawKey, topN);
    LemmaClosestReply(models, ont, model, rawKey, topN);
    if r.Ok? {
      var key := Resolve(models, ont, rawKey).value;
      forall i | 0 <= i < |r.value| ensures exists a, b ::
          0 <= a < |entities| && 0 <= b < |entities| && a != b &&
          entities[a] == key && entities[b] == r.value[i].link &&
          r.value[i].similarity == Cosine(embeddings[a], embeddings[b])
      {
        LemmaEntityEmbedding(entities, embeddings, key);
        LemmaEntityEmbedding(entities, embeddings, r.value[i].link);
      }
    }
  }

  /** An entity of the document is found at some position, with that position's embedding. */
  lemma LemmaEntityEmbedding(entities: seq<string>, embeddings: seq<Vector>, k: string)
    requires NoDuplicates(entities) && |embeddings| == |entities|
    requires k in Keys(EmbeddingDocument(entities, embeddings))
    ensures exists a :: 0 <= a < |entities| && entities[a] == k && Get(EmbeddingDocument(entities, embeddings), k) == Some(embeddings[a])
  {
    assert entities[..Min(|entities|, |embeddings|)] == entities;
    var a :| 0 <= a < |entities| && entities[a] == k;
    LemmaEmbeddingLookup(entities, embeddings, a);
  }
}

=== FILE: queries.dfy ===
/**
 The four query handlers of the server: pairwise similarity for GO
 (`rest_go`) and HP (`rest_hp`), and nearest neighbours (`closest_go`,
 `closest_hp`). Request parsing and JSON responses are left to the caller:
 a handler takes the registry and the request fields and returns either the
 reply or the failure the client sees.
 */
module Queries {
  import opened Basics
  import opened Dicts
  import opened Text
  import opened Similarity
  import opened Ranking
  import opened TieOrder
  import opened Registry
  import opened Rdf

  /** `data.get("top_n", 10)`. */
  const DefaultTopN: int := 10

  datatype Ontology = GO | HP {
    /** Prefix of both the model names and the raw identifiers of this ontology. */
    function Prefix(): string {
      match this
      case GO => "GO_"
      case HP => "HP_"
    }

    function LabelsName(): string {
      Prefix() + "Labels"
    }

    function SimilarityIdsMissing(): string {
      match this
      case GO => "GO IDs not found"
      case HP => "HP IDs not found"
    }

    function ClosestKeyMissing(): string {
      match this
      case GO => "ID or Label not found"
      case HP => "Key not found"
    }
  }

  /** An exception that escapes a handler; the web framework answers it with status 500. */
  datatype Crash =
    | MissingKey(key: string)
    | NotALabelDictionary(name: string)
    | NotAVectorTable(name: string)
    | UnmodelledForeignTable(name: string)

  datatype Failure = ModelNotFound | IdsNotFound(message: string) | Crashed(crash: Crash)

  function Status(f: Failure): int {
    match f
    case ModelNotFound => 404
    case IdsNotFound(_) => 400
    case Crashed(_) => 500
  }

  datatype Result<+T> = Ok(value: T) | Err(failure: Failure) {
    predicate IsFailure() {
      Err?
    }

    function PropagateFailure<U>(): Result<U>
      requires Err?
    {
      Err(failure)
    }

    function Extract(): T
      requires Ok?
    {
      value
    }
  }

  datatype SimilarityReply = SimilarityReply(label1: string, label2: string, url1: string, url2: string, similarity: real)

  datatype NeighbourReply = NeighbourReply(key: string, link: string, similarity: real)

  /** `loaded_models["GO_Labels"]` (or `"HP_Labels"`), usable only when it is a label document. */
  function LabelDictionary(models: Models, ont: Ontology): Result<map<string, string>> {
    var entry: Option<Model> := Get(models, ont.LabelsName());
    if entry.None? then Err(Crashed(MissingKey(ont.LabelsName())))
    else if entry.value.JsonModel? && entry.value.doc.LabelDocument? then Ok(entry.value.doc.labels)
    else Err(Crashed(NotALabelDictionary(ont.LabelsName())))
  }

  /**
   The key resolver: a raw id carrying the ontology prefix becomes a URI with
   no existence check and without looking at the label dictionary; anything
   else is normalised and must be a key of the label dictionary.
   */
  function Resolve(models: Models, ont: Ontology, raw: string): (r: Result<string>)
    ensures StartsWith(raw, ont.Prefix()) ==> r == Ok(OboBase + raw)
    ensures !StartsWith(raw, ont.Prefix()) ==>
      (r.Ok? <==> LabelDictionary(models, ont).Ok? && Normalize(raw) in LabelDictionary(models, ont).value)
    ensures !StartsWith(raw, ont.Prefix()) && r.Ok? ==>
      r.value == LabelDictionary(models, ont).value[Normalize(raw)]
    ensures !StartsWith(raw, ont.Prefix()) && LabelDictionary(models, ont).Ok? && r.Err? ==>
      r.failure == Crashed(MissingKey(Normalize(raw))) && '_' !in r.failure.crash.key
  {
    if StartsWith(raw, ont.Prefix()) then
      Ok(OboBase + raw)
    else
      var labels :- LabelDictionary(models, ont);
      var key := Normalize(raw);
      LemmaNormalizeHasNoUnderscore(raw);
      if key in labels then Ok(labels[key]) else Err(Crashed(MissingKey(key)))
  }

  /** The label of `uri` followed by its last path segment in brackets. */
  function Shown(labels: map<string, string>, uri: string): string
    requires uri in labels
  {
    labels[uri] + " [" + LastSegment(uri) + "]"
  }

  /** `labels[uri] + " [" + uri.split("/")[-1] + "]"`, which raises `KeyError` for an unlabelled URI. */
  function DisplayLabel(labels: map<string, string>, uri: string): (r: Result<string>)
    ensures r.Ok? <==> uri in labels
    ensures r.Err? ==> r.failure == Crashed(MissingKey(uri))
  {
    if uri in labels then Ok(Shown(labels, uri)) else Err(Crashed(MissingKey(uri)))
  }

  /** The scoring part of `rest_go` / `rest_hp` once both ids are resolved. */
  function PairScore(model: Model, name: string, ont: Ontology, id1: string, id2: string): (r: Result<real>)
    ensures r.Err? ==> r.failure == IdsNotFound(ont.SimilarityIdsMissing()) || r.failure == Crashed(NotAVectorTable(name))
    ensures r.Err? && r.failure.Crashed? ==> model.JsonModel? && model.doc.LabelDocument?
  {
    match model
    case KvModel(kv) =>
      if id1 !in kv.keys || id2 !in kv.keys then Err(IdsNotFound(ont.SimilarityIdsMissing()))
      else Ok(kv.similarity(id1, id2))
    case JsonModel(VectorDocument(table)) =>
      var v1, v2 := Get(table, id1), Get(table, id2);
      if v1.None? || v2.None? then Err(IdsNotFound(ont.SimilarityIdsMissing()))
      else Ok(Cosine(v1.value, v2.value))
    case JsonModel(LabelDocument(labels)) =>
      if id1 !in labels || id2 !in labels then Err(IdsNotFound(ont.SimilarityIdsMissing()))
      else Err(Crashed(NotAVectorTable(name)))
  }

  /** Both ids resolved, in order. */
  function ResolveBoth(models: Models, ont: Ontology, raw1: string, raw2: string): Result<(string, string)> {
    var id1 :- Resolve(models, ont, raw1);
    var id2 :- Resolve(models, ont, raw2);
    Ok((id1, id2))
  }

  /** Everything after the model check and id resolution: score, then both display labels. */
  function SimilarityReplyFor(models: Models, name: string, ont: Ontology, id1: string, id2: string): Result<SimilarityReply>
    requires name in Keys(models)
  {
    var score :- PairScore(Get(models, name).value, name, ont, id1, id2);
    var labels :- LabelDictionary(models, ont);
    var label1 :- DisplayLabel(labels, id1);
    var label2 :- DisplayLabel(labels, id2);
    Ok(SimilarityReply(label1, label2, id1, id2, score))
  }

  /**
   `rest_go` and `rest_hp`. They differ only in order: the GO handler checks
   the model name before resolving the ids, the HP handler after.
   */
  function CalculateSimilarity(models: Models, ont: Ontology, model: string, raw1: string, raw2: string): Result<SimilarityReply> {
    var name := ont.Prefix() + model;
    match ont
    case GO =>
      if name !in Keys(models) then Err(ModelNotFound)
      else
        var ids :- ResolveBoth(models, ont, raw1, raw2);
        SimilarityReplyFor(models, name, ont, ids.0, ids.1)
    case HP =>
      var ids :- ResolveBoth(models, ont, raw1, raw2);
      if name !in Keys(models) then Err(ModelNotFound)
      else SimilarityReplyFor(models, name, ont, ids.0, ids.1)
  }

  /**
   The reply lists the ranked entries in rank order: each entry shows the
   key's label followed by the key's last path segment in brackets, links
   to the key and carries its score.
   */
  predicate Lists(reply: seq<NeighbourReply>, labels: map<string, string>, ranked: seq<Scored>) {
    |reply| == |ranked| && forall i :: 0 <= i < |ranked| ==> Shows(reply[i], labels, ranked[i])
  }

  /** One response entry for one ranked neighbour. */
  predicate Shows(e: NeighbourReply, labels: map<string, string>, s: Scored) {
    s.key in labels && e == NeighbourReply(Shown(labels, s.key), s.key, s.score)
  }

  /** Every ranked key has a label. */
  predicate AllLabelled(labels: map<string, string>, ranked: seq<Scored>) {
    forall i :: 0 <= i < |ranked| ==> ranked[i].key in labels
  }

  lemma LemmaAllLabelledCons(labels: map<string, string>, ranked: seq<Scored>)
    requires |ranked| > 0
    ensures AllLabelled(labels, ranked) <==> ranked[0].key in labels && AllLabelled(labels, ranked[1..])
  {
    assert forall i :: 1 <= i < |ranked| ==> ranked[1..][i - 1] == ranked[i];
  }

  lemma LemmaListsCons(reply: seq<NeighbourReply>, labels: map<string, string>, ranked: seq<Scored>, head: NeighbourReply)
    requires |ranked| > 0 && Lists(reply, labels, ranked[1..])
    requires ranked[0].key in labels && head == NeighbourReply(Shown(labels, ranked[0].key), ranked[0].key, ranked[0].score)
    ensures Lists([head] + reply, labels, ranked)
  {
    var all := [head] + reply;
    assert Shows(head, labels, ranked[0]);
    forall i | 0 <= i < |ranked| ensures Shows(all[i], labels, ranked[i]) {
      if i > 0 {
        LemmaShowsShifted(reply, labels, ranked, head, i);
      }
    }
  }

  /** Entry `i - 1` of the tail's reply is entry `i` of the reply with a head in front. */
  lemma LemmaShowsShifted(reply: seq<NeighbourReply>, labels: map<string, string>, ranked: seq<Scored>, head: NeighbourReply, i: int)
    requires 0 < i < |ranked| && |reply| == |ranked| - 1
    requires Shows(reply[i - 1], labels, ranked[1..][i - 1])
    ensures Shows(([head] + reply)[i], labels, ranked[i])
  {
    assert ranked[1..][i - 1] == ranked[i];
    assert ([head] + reply)[i] == reply[i - 1];
  }

  /** One display label per ranked neighbour, from a label dictionary already fetched. */
  function FormatWith(labels: map<string, string>, ranked: seq<Scored>): (r: Result<seq<NeighbourReply>>)
    ensures r.Ok? <==> AllLabelled(labels, ranked)
    ensures r.Ok? ==> Lists(r.value, labels, ranked)
    ensures r.Err? ==> r.failure.Crashed? && r.failure.crash.MissingKey? && r.failure.crash.key !in labels
  {
    if |ranked| == 0 then Ok([])
    else
      LemmaAllLabelledCons(labels, ranked);
      if ranked[0].key !in labels then Err(Crashed(MissingKey(ranked[0].key)))
      else
        var rest := FormatWith(labels, ranked[1..]);
        if rest.Err? then Err(rest.failure)
        else
          var head := NeighbourReply(Shown(labels, ranked[0].key), ranked[0].key, ranked[0].score);
          LemmaListsCons(rest.value, labels, ranked, head);
          Ok([head] + rest.value)
  }

  /**
   The response list comprehension. The label dictionary is consulted once
   per neighbour, so an empty neighbour list never touches it.
   */
  function FormatNeighbours(models: Models, ont: Ontology, ranked: seq<Scored>): (r: Result<seq<NeighbourReply>>)
    ensures |ranked| == 0 ==> r == Ok([])
    ensures r.Ok? <==> (|ranked| == 0 || (LabelDictionary(models, ont).Ok? && AllLabelled(LabelDictionary(models, ont).value, ranked)))
    ensures r.Ok? && |ranked| > 0 ==> LabelDictionary(models, ont).Ok? && Lists(r.value, LabelDictionary(models, ont).value, ranked)
  {
    if |ranked| == 0 then Ok([])
    else
      var labels :- LabelDictionary(models, ont);
      FormatWith(labels, ranked)
  }

  /** Some entry of the reply links to `k`. */
  predicate LinksTo(reply: seq<NeighbourReply>, k: string) {
    exists j :: 0 <= j < |reply| && reply[j].link == k
  }

  /**
   What a neighbour reply for `key` promises about the table it was ranked
   in: `key` is in the table and never listed, every link is another table
   key whose similarity is the cosine of the two stored vectors, scores do
   not increase, no link is listed twice, links with equal scores follow
   table order, no entry left out scores above a listed one, an entry left
   out that ties with a listed one comes later in the table, and a
   non-negative `n` yields `min(n, |table| - 1)` entries.
   */
  predicate IsNeighbourReply(reply: seq<NeighbourReply>, table: VectorTable, key: string, n: int) {
    && key in Keys(table)
    && (forall i :: 0 <= i < |reply| ==>
          reply[i].link != key && reply[i].link in Keys(table) &&
          reply[i].similarity == Cosine(Get(table, key).value, Get(table, reply[i].link).value))
    && (forall i, j :: 0 <= i < j < |reply| ==> reply[i].similarity >= reply[j].similarity)
    && (forall i, j :: 0 <= i < j < |reply| ==> reply[i].link != reply[j].link)
    && (forall i, j :: 0 <= i < j < |reply| && reply[i].similarity == reply[j].similarity ==>
          IndexOf(Keys(table), reply[i].link) < IndexOf(Keys(table), reply[j].link))
    && (forall t, i :: 0 <= t < |table| && table[t].0 != key && !LinksTo(reply, table[t].0) && 0 <= i < |reply| ==>
          Cosine(Get(table, key).value, table[t].1) <= reply[i].similarity)
    && (forall t, i ::
          (0 <= t < |table| && table[t].0 != key && !LinksTo(reply, table[t].0) && 0 <= i < |reply| &&
           Cosine(Get(table, key).value, table[t].1) == reply[i].similarity) ==>
          IndexOf(Keys(table), reply[i].link) < t)
    && (n >= 0 ==> |reply| == Min(n, |table| - 1))
  }

  /** Every entry shows its link's label and the link's last segment in brackets. */
  predicate Labelled(reply: seq<NeighbourReply>, labels: map<string, string>) {
    forall i :: 0 <= i < |reply| ==> reply[i].link in labels && reply[i].key == Shown(labels, reply[i].link)
  }

  /** The JSON vector table branch of a neighbour query: look the key up, rank the rest, format the top entries. */
  function RankedReply(models: Models, ont: Ontology, table: VectorTable, key: string, n: int): Result<seq<NeighbourReply>> {
    match Get(table, key)
    case None => Err(IdsNotFound(ont.ClosestKeyMissing()))
    case Some(query) => FormatNeighbours(models, ont, Neighbours(query, table, key, n))
  }

  /** `closest_go` and `closest_hp`: the model check, then resolution, then the ranking. */
  function Closest(models: Models, ont: Ontology, model: string, rawKey: string, topN: Option<int>): Result<seq<NeighbourReply>> {
    var n := topN.GetOr(DefaultTopN);
    var name := ont.Prefix() + model;
    if name !in Keys(models) then Err(ModelNotFound)
    else
      var key :- Resolve(models, ont, rawKey);
      match Get(models, name).value
      case KvModel(_) => Err(Crashed(UnmodelledForeignTable(name)))
      case JsonModel(LabelDocument(labels)) =>
        if key !in labels then Err(IdsNotFound(ont.ClosestKeyMissing()))
        else if exists k :: k in labels && k != key then Err(Crashed(NotAVectorTable(name)))
        else Ok([])
      case JsonModel(VectorDocument(table)) => RankedReply(models, ont, table, key, n)
  }

  /** The GO handlers answer 404 for an unknown model whatever the ids are: the model is checked first. */
  lemma LemmaGoChecksModelFirst(models: Models, model: string, raw1: string, raw2: string)
    requires "GO_" + model !in Keys(models)
    ensures CalculateSimilarity(models, GO, model, raw1, raw2) == Err(ModelNotFound)
    ensures Status(CalculateSimilarity(models, GO, model, raw1, raw2).failure) == 404
  {
  }

  /** Past the GO model check, a resolution failure is the reply; otherwise the resolved ids are scored and labelled. */
  lemma LemmaGoResolvesAfterModel(models: Models, model: string, raw1: string, raw2: string)
    requires "GO_" + model in Keys(models)
    ensures var b := ResolveBoth(models, GO, raw1, raw2);
      CalculateSimilarity(models, GO, model, raw1, raw2) ==
        if b.Err? then Err(b.failure) else SimilarityReplyFor(models, "GO_" + model, GO, b.value.0, b.value.1)
  {
  }

  /**
   The HP similarity handler resolves both ids before it looks at the model:
   a resolution failure wins over an unknown model, and a known model is
   required only once both ids resolved.
   */
  lemma LemmaHpResolvesFirst(models: Models, model: string, raw1: string, raw2: string)
    ensures ResolveBoth(models, HP, raw1, raw2).Err? ==>
      CalculateSimilarity(models, HP, model, raw1, raw2) == Err(ResolveBoth(models, HP, raw1, raw2).failure)
    ensures ResolveBoth(models, HP, raw1, raw2).Ok? && "HP_" + model !in Keys(models) ==>
      CalculateSimilarity(models, HP, model, raw1, raw2) == Err(ModelNotFound)
  {
  }

  /**
   The difference made visible: with no models at all and a free-text id, the
   GO handler answers 404 and the HP handler fails with a missing label
   dictionary (500).
   */
  lemma LemmaErrorOrderDiffers(model: string, raw: string)
    requires !StartsWith(raw, "GO_") && !StartsWith(raw, "HP_")
    ensures Status(CalculateSimilarity([], GO, model, raw, raw).failure) == 404
    ensures CalculateSimilarity([], HP, model, raw, raw) == Err(Crashed(MissingKey("HP_Labels")))
    ensures Status(CalculateSimilarity([], HP, model, raw, raw).failure) == 500
  {
    var none: Models := [];
    assert HP.LabelsName() == "HP_Labels";
    assert Keys(none) == [];
    assert LabelDictionary(none, HP) == Err(Crashed(MissingKey("HP_Labels")));
  }

  /** Once the model is found and both ids resolve, either id missing from a JSON vector table is a 400. */
  lemma LemmaMissingIdIsBadRequest(models: Models, ont: Ontology, model: string, raw1: string, raw2: string)
    requires ont.Prefix() + model in Keys(models)
    requires Get(models, ont.Prefix() + model).value.JsonModel?
    requires Get(models, ont.Prefix() + model).value.doc.VectorDocument?
    requires ResolveBoth(models, ont, raw1, raw2).Ok?
    requires var ids := ResolveBoth(models, ont, raw1, raw2).value;
      var table := Get(models, ont.Prefix() + model).value.doc.vectors;
      ids.0 !in Keys(table) || ids.1 !in Keys(table)
    ensures CalculateSimilarity(models, ont, model, raw1, raw2) == Err(IdsNotFound(ont.SimilarityIdsMissing()))
    ensures Status(CalculateSimilarity(models, ont, model, raw1, raw2).failure) == 400
  {
  }

  /** The same for a `.kv` model: either id outside its key set is a 400. */
  lemma LemmaKvMissingIdIsBadRequest(models: Models, ont: Ontology, model: string, raw1: string, raw2: string)
    requires ont.Prefix() + model in Keys(models)
    requires Get(models, ont.Prefix() + model).value.KvModel?
    requires ResolveBoth(models, ont, raw1, raw2).Ok?
    requires var ids := ResolveBoth(models, ont, raw1, raw2).value;
      var kv := Get(models, ont.Prefix() + model).value.kv;
      ids.0 !in kv.keys || ids.1 !in kv.keys
    ensures CalculateSimilarity(models, ont, model, raw1, raw2) == Err(IdsNotFound(ont.SimilarityIdsMissing()))
    ensures Status(CalculateSimilarity(models, ont, model, raw1, raw2).failure) == 400
  {
  }

  /** On a `.kv` model with both ids present the score is the one the vector library reports. */
  lemma LemmaKvScore(models: Models, ont: Ontology, model: string, raw1: string, raw2: string)
    requires ont.Prefix() + model in Keys(models)
    requires Get(models, ont.Prefix() + model).value.KvModel?
    requires ResolveBoth(models, ont, raw1, raw2).Ok?
    ensures var ids := ResolveBoth(models, ont, raw1, raw2).value;
      var kv := Get(models, ont.Prefix() + model).value.kv;
      var r := CalculateSimilarity(models, ont, model, raw1, raw2);
      ids.0 in kv.keys && ids.1 in kv.keys && r.Ok? ==> r.value.similarity == kv.similarity(ids.0, ids.1)
  {
  }

  /** Both neighbour handlers answer 404 for an unknown model whatever the key and `top_n` are. */
  lemma LemmaClosestChecksModelFirst(models: Models, ont: Ontology, model: string, rawKey: string, topN: Option<int>)
    requires ont.Prefix() + model !in Keys(models)
    ensures Closest(models, ont, model, rawKey, topN) == Err(ModelNotFound)
    ensures Status(Closest(models, ont, model, rawKey, topN).failure) == 404
  {
  }

  /**
   A prefixed id with no `/` needs no label lookup to resolve, and its
   display label ends in the raw id in brackets.
   */
  lemma LemmaPrefixedIdDisplay(labels: map<string, string>, ont: Ontology, models: Models, raw: string)
    requires StartsWith(raw, ont.Prefix()) && '/' !in raw
    ensures Resolve(models, ont, raw) == Ok(OboBase + raw)
    ensures OboBase + raw in labels ==> DisplayLabel(labels, OboBase + raw) == Ok(labels[OboBase + raw] + " [" + raw + "]")
    ensures OboBase + raw !in labels ==> DisplayLabel(labels, OboBase + raw).Err?
  {
    LemmaLastSegmentOfJoin(OboBase, raw);
  }

  /**
   A full reply: both ids prefixed, both in a JSON vector model and in the
   label dictionary. The URLs are the OBO URIs, the labels carry the raw
   ids, and the score is the cosine of the two stored vectors.
   */
  lemma LemmaSimilarityReply(models: Models, ont: Ontology, model: string, raw1: string, raw2: string)
    requires StartsWith(raw1, ont.Prefix()) && '/' !in raw1
    requires StartsWith(raw2, ont.Prefix()) && '/' !in raw2
    requires ont.Prefix() + model in Keys(models)
    requires Get(models, ont.Prefix() + model).value.JsonModel?
    requires Get(models, ont.Prefix() + model).value.doc.VectorDocument?
    requires LabelDictionary(models, ont).Ok?
    ensures var table := Get(models, ont.Prefix() + model).value.doc.vectors;
      var labels := LabelDictionary(models, ont).value;
      var r := CalculateSimilarity(models, ont, model, raw1, raw2);
      (r.Ok? <==> OboBase + raw1 in Keys(table) && OboBase + raw2 in Keys(table) && OboBase + raw1 in labels && OboBase + raw2 in labels) &&
      (r.Ok? ==> r.value == SimilarityReply(
         labels[OboBase + raw1] + " [" + raw1 + "]",
         labels[OboBase + raw2] + " [" + raw2 + "]",
         OboBase + raw1, OboBase + raw2,
         Cosine(Get(table, OboBase + raw1).value, Get(table, OboBase + raw2).value)))
  {
    var labels := LabelDictionary(models, ont).value;
    LemmaPrefixedIdDisplay(labels, ont, models, raw1);
    LemmaPrefixedIdDisplay(labels, ont, models, raw2);
  }

  /**
   Swapping the two ids of a similarity request on a JSON vector model
   succeeds exactly when the original does, swaps the labels and URLs, and
   keeps the score.
   */
  lemma LemmaSimilaritySymmetric(models: Models, ont: Ontology, model: string, raw1: string, raw2: string)
    requires ont.Prefix() + model in Keys(models)
    requires Get(models, ont.Prefix() + model).value.JsonModel?
    requires Get(models, ont.Prefix() + model).value.doc.VectorDocument?
    ensures var r := CalculateSimilarity(models, ont, model, raw1, raw2);
      var s := CalculateSimilarity(models, ont, model, raw2, raw1);
      (r.Ok? <==> s.Ok?) &&
      (r.Ok? ==> s.value == SimilarityReply(r.value.label2, r.value.label1, r.value.url2, r.value.url1, r.value.similarity))
  {
    var name := ont.Prefix() + model;
    var b1, b2 := ResolveBoth(models, ont, raw1, raw2), ResolveBoth(models, ont, raw2, raw1);
    assert b1.Ok? <==> b2.Ok?;
    if b1.Ok? {
      var id1, id2 := b1.value.0, b1.value.1;
      assert b2.value == (id2, id1);
      assert CalculateSimilarity(models, ont, model, raw1, raw2) == SimilarityReplyFor(models, name, ont, id1, id2);
      assert CalculateSimilarity(models, ont, model, raw2, raw1) == SimilarityReplyFor(models, name, ont, id2, id1);
      LemmaReplySwap(models, name, ont, id1, id2);
    }
  }

  /**
   Past the model check and id resolution, a similarity reply exists exactly
   when the pair scores and both ids have labels; it carries the display
   labels, the two URIs and the score.
   */
  lemma LemmaReplyFor(models: Models, name: string, ont: Ontology, id1: string, id2: string)
    requires name in Keys(models)
    ensures var r := SimilarityReplyFor(models, name, ont, id1, id2);
      var score := PairScore(Get(models, name).value, name, ont, id1, id2);
      var labels := LabelDictionary(models, ont);
      (r.Ok? <==> score.Ok? && labels.Ok? && id1 in labels.value && id2 in labels.value) &&
      (r.Ok? ==> r.value == SimilarityReply(Shown(labels.value, id1), Shown(labels.value, id2), id1, id2, score.value))
  {
  }

  /** On a JSON vector table the score does not depend on the order of the ids. */
  lemma LemmaPairScoreSwap(model: Model, name: string, ont: Ontology, id1: string, id2: string)
    requires model.JsonModel? && model.doc.VectorDocument?
    ensures PairScore(model, name, ont, id1, id2) == PairScore(model, name, ont, id2, id1)
  {
    var v1, v2 := Get(model.doc.vectors, id1), Get(model.doc.vectors, id2);
    if v1.Some? && v2.Some? {
      LemmaCosineSymmetric(v1.value, v2.value);
    }
  }

  /** The scoring and labelling steps treat the two ids alike on a JSON vector model. */
  lemma LemmaReplySwap(models: Models, name: string, ont: Ontology, id1: string, id2: string)
    requires name in Keys(models)
    requires Get(models, name).value.JsonModel? && Get(models, name).value.doc.VectorDocument?
    ensures var r := SimilarityReplyFor(models, name, ont, id1, id2);
      var s := SimilarityReplyFor(models, name, ont, id2, id1);
      (r.Ok? <==> s.Ok?) &&
      (r.Ok? ==> s.value == SimilarityReply(r.value.label2, r.value.label1, r.value.url2, r.value.url1, r.value.similarity))
  {
    LemmaReplyFor(models, name, ont, id1, id2);
    LemmaReplyFor(models, name, ont, id2, id1);
    LemmaPairScoreSwap(Get(models, name).value, name, ont, id1, id2);
  }

  /** A resolved key absent from a JSON vector model is a 400 with the handler's own message. */
  lemma LemmaClosestMissingKey(models: Models, ont: Ontology, model: string, rawKey: string, topN: Option<int>)
    requires ont.Prefix() + model in Keys(models)
    requires Get(models, ont.Prefix() + model).value.JsonModel?
    requires Get(models, ont.Prefix() + model).value.doc.VectorDocument?
    requires Resolve(models, ont, rawKey).Ok?
    requires Resolve(models, ont, rawKey).value !in Keys(Get(models, ont.Prefix() + model).value.doc.vectors)
    ensures Closest(models, ont, model, rawKey, topN) == Err(IdsNotFound(ont.ClosestKeyMissing()))
  {
  }

  /** The ranking and formatting part of a neighbour query on a table with distinct keys. */
  lemma LemmaRankedReply(models: Models, ont: Ontology, table: VectorTable, key: string, n: int)
    requires DistinctKeys(table)
    ensures var r := RankedReply(models, ont, table, key, n);
      r.Ok? ==>
        IsNeighbourReply(r.value, table, key, n) &&
        (|r.value| > 0 ==> LabelDictionary(models, ont).Ok? && Labelled(r.value, LabelDictionary(models, ont).value))
  {
    var r := RankedReply(models, ont, table, key, n);
    if r.Ok? {
      var ranked := Neighbours(Get(table, key).value, table, key, n);
      assert r == FormatNeighbours(models, ont, ranked);
      LemmaNeighboursRanking(table, key, n);
      LemmaFormattedRanking(models, ont, table, key, n, ranked);
    }
  }

  /**
   What the ranking promises for query key `key` of `table`: every entry is
   another table key scored by the cosine of the two stored vectors, scores
   do not increase, no key repeats, ties follow table order, nothing left
   out scores higher, an entry left out that ties with a kept one comes
   later in the table, and a non-negative `n` keeps `min(n, |table| - 1)`.
   */
  predicate IsRanking(ranked: seq<Scored>, table: VectorTable, key: string, n: int) {
    && key in Keys(table)
    && (forall i :: 0 <= i < |ranked| ==>
          ranked[i].key != key && ranked[i].key in Keys(table) &&
          ranked[i].score == Cosine(Get(table, key).value, Get(table, ranked[i].key).value))
    && Descending(ranked)
    && (forall i, j :: 0 <= i < j < |ranked| ==> ranked[i].key != ranked[j].key)
    && (forall i, j :: 0 <= i < j < |ranked| && ranked[i].score == ranked[j].score ==>
          IndexOf(Keys(table), ranked[i].key) < IndexOf(Keys(table), ranked[j].key))
    && (forall t, i :: 0 <= t < |table| && table[t].0 != key && !Listed(ranked, table[t].0) && 0 <= i < |ranked| ==>
          Cosine(Get(table, key).value, table[t].1) <= ranked[i].score)
    && (forall t, i ::
          (0 <= t < |table| && table[t].0 != key && !Listed(ranked, table[t].0) && 0 <= i < |ranked| &&
           Cosine(Get(table, key).value, table[t].1) == ranked[i].score) ==>
          IndexOf(Keys(table), ranked[i].key) < t)
    && (n >= 0 ==> |ranked| == Min(n, |table| - 1))
  }

  /** The neighbours of a key of a table with distinct keys form a ranking for it. */
  lemma LemmaNeighboursRanking(table: VectorTable, key: string, n: int)
    requires DistinctKeys(table) && key in Keys(table)
    ensures IsRanking(Neighbours(Get(table, key).value, table, key, n), table, key, n)
  {
    var query := Get(table, key).value;
    LemmaNeighboursLength(query, table, key, n);
    LemmaNeighboursScored(query, table, key, n);
    LemmaNeighboursBest(query, table, key, n);
    LemmaNeighboursDistinct(query, table, key, n);
    LemmaNeighboursTiesInOrder(query, table, key, n);
    LemmaTieAtCut(query, table, key, n);
  }

  /** Formatting a ranking gives a neighbour reply whose entries show their labels. */
  lemma LemmaFormattedRanking(models: Models, ont: Ontology, table: VectorTable, key: string, n: int, ranked: seq<Scored>)
    requires IsRanking(ranked, table, key, n)
    ensures var r := FormatNeighbours(models, ont, ranked);
      r.Ok? ==>
        IsNeighbourReply(r.value, table, key, n) &&
        (|r.value| > 0 ==> LabelDictionary(models, ont).Ok? && Labelled(r.value, LabelDictionary(models, ont).value))
  {
    var r := FormatNeighbours(models, ont, ranked);
    if r.Ok? {
      if |ranked| > 0 {
        LemmaListsFields(r.value, LabelDictionary(models, ont).value, ranked);
      }
      LemmaReplyOfRanking(r.value, table, key, n, ranked);
    }
  }

  /** A listing reply links to the ranked keys with their scores, and shows their labels. */
  lemma LemmaListsFields(reply: seq<NeighbourReply>, labels: map<string, string>, ranked: seq<Scored>)
    requires Lists(reply, labels, ranked)
    ensures forall i :: 0 <= i < |reply| ==> reply[i].link == ranked[i].key && reply[i].similarity == ranked[i].score
    ensures Labelled(reply, labels)
  {
    forall i | 0 <= i < |reply| ensures reply[i].link in labels && reply[i].key == Shown(labels, reply[i].link) {
      assert Shows(reply[i], labels, ranked[i]);
    }
  }

  /** A reply whose links and similarities are those of the ranking carries over what the ranking promises. */
  lemma LemmaReplyOfRanking(reply: seq<NeighbourReply>, table: VectorTable, key: string, n: int, ranked: seq<Scored>)
    requires |reply| == |ranked|
    requires forall i :: 0 <= i < |reply| ==> reply[i].link == ranked[i].key && reply[i].similarity == ranked[i].score
    requires IsRanking(ranked, table, key, n)
    ensures IsNeighbourReply(reply, table, key, n)
  {
    var query := Get(table, key).value;
    forall i | 0 <= i < |reply|
      ensures reply[i].link != key && reply[i].link in Keys(table)
      ensures reply[i].similarity == Cosine(query, Get(table, reply[i].link).value)
    {
      assert reply[i].link == ranked[i].key;
    }
    forall i, j | 0 <= i < j < |reply|
      ensures reply[i].similarity >= reply[j].similarity && reply[i].link != reply[j].link
      ensures reply[i].similarity == reply[j].similarity ==>
        IndexOf(Keys(table), reply[i].link) < IndexOf(Keys(table), reply[j].link)
    {
      assert reply[i].link == ranked[i].key && reply[j].link == ranked[j].key;
      assert ranked[i].score >= ranked[j].score && ranked[i].key != ranked[j].key;
    }
    forall t, i | 0 <= t < |table| && table[t].0 != key && !LinksTo(reply, table[t].0) && 0 <= i < |reply|
      ensures Cosine(query, table[t].1) <= reply[i].similarity
    {
      LemmaLinksToListed(reply, ranked, table[t].0);
      assert reply[i].similarity == ranked[i].score;
    }
    forall t, i |
      && 0 <= t < |table| && table[t].0 != key && !LinksTo(reply, table[t].0) && 0 <= i < |reply|
      && Cosine(query, table[t].1) == reply[i].similarity
      ensures IndexOf(Keys(table), reply[i].link) < t
    {
      LemmaLinksToListed(reply, ranked, table[t].0);
      assert reply[i].similarity == ranked[i].score && reply[i].link == ranked[i].key;
    }
  }

  /** A reply that copies the ranking's keys links to exactly the listed keys. */
  lemma LemmaLinksToListed(reply: seq<NeighbourReply>, ranked: seq<Scored>, k: string)
    requires |reply| == |ranked|
    requires forall i :: 0 <= i < |reply| ==> reply[i].link == ranked[i].key
    ensures LinksTo(reply, k) <==> Listed(ranked, k)
  {
    if LinksTo(reply, k) {
      var j :| 0 <= j < |reply| && reply[j].link == k;
      assert ranked[j].key == k;
    }
    if Listed(ranked, k) {
      var j :| 0 <= j < |ranked| && ranked[j].key == k;
      assert reply[j].link == k;
    }
  }

  /**
   A successful neighbour list from a JSON vector model with distinct keys:
   the raw key resolves to a key of the table, and the reply is a neighbour
   reply for it (`top_n` defaulting to 10) whose entries show their labels.
   */
  lemma LemmaClosestReply(models: Models, ont: Ontology, model: string, rawKey: string, topN: Option<int>)
    requires ont.Prefix() + model in Keys(models)
    requires Get(models, ont.Prefix() + model).value.JsonModel?
    requires Get(models, ont.Prefix() + model).value.doc.VectorDocument?
    requires DistinctKeys(Get(models, ont.Prefix() + model).value.doc.vectors)
    ensures var r := Closest(models, ont, model, rawKey, topN);
      var table := Get(models, ont.Prefix() + model).value.doc.vectors;
      r.Ok? ==>
        Resolve(models, ont, rawKey).Ok? &&
        IsNeighbourReply(r.value, table, Resolve(models, ont, rawKey).value, topN.GetOr(DefaultTopN)) &&
        (|r.value| > 0 ==> LabelDictionary(models, ont).Ok? && Labelled(r.value, LabelDictionary(models, ont).value))
  {
    var table := Get(models, ont.Prefix() + model).value.doc.vectors;
    var key := Resolve(models, ont, rawKey);
    LemmaClosestOnVectors(models, ont, model, rawKey, topN);
    if key.Ok? {
      LemmaRankedReply(models, ont, table, key.value, topN.GetOr(DefaultTopN));
    }
  }

  /** On a JSON vector model a neighbour query is resolution followed by the ranking of the table. */
  lemma LemmaClosestOnVectors(models: Models, ont: Ontology, model: string, rawKey: string, topN: Option<int>)
    requires ont.Prefix() + model in Keys(models)
    requires Get(models, ont.Prefix() + model).value.JsonModel?
    requires Get(models, ont.Prefix() + model).value.doc.VectorDocument?
    ensures var key := Resolve(models, ont, rawKey);
      var table := Get(models, ont.Prefix() + model).value.doc.vectors;
      Closest(models, ont, model, rawKey, topN) ==
        if key.Err? then Err(key.failure) else RankedReply(models, ont, table, key.value, topN.GetOr(DefaultTopN))
  {
  }

  /** A free-text label is lower-cased and has `_` read as a space before it is looked up. */
  lemma LemmaLabelScenario(models: Models)
    requires models == [("GO_Labels", JsonModel(LabelDocument(map["cell division" := OboBase + "GO_0051301", OboBase + "GO_0051301" := "cell division"])))]
    ensures Resolve(models, GO, "Cell_Division") == Ok(OboBase + "GO_0051301")
    ensures Resolve(models, GO, "GO_0051301") == Ok(OboBase + "GO_0051301")
    ensures Resolve(models, GO, "Mitosis") == Err(Crashed(MissingKey("mitosis")))
    ensures Resolve(models, HP, "Cell_Division") == Err(Crashed(MissingKey("HP_Labels")))
  {
    var labels := map["cell division" := OboBase + "GO_0051301", OboBase + "GO_0051301" := "cell division"];
    LemmaScenarioDictionaries(models, labels);
    assert "Cell_Division"[..3][0] == 'C' && "Mitosis"[..3][0] == 'M';
    assert !StartsWith("Cell_Division", "GO_") && !StartsWith("Cell_Division", "HP_") && !StartsWith("Mitosis", "GO_");
    assert StartsWith("GO_0051301", "GO_");
    LemmaNormalizeCaseAndUnderscore();
    assert Normalize("Mitosis") == "mitosis";
    assert "mitosis" !in labels;
  }

  /** A registry holding only a GO label document. */
  lemma LemmaScenarioDictionaries(models: Models, labels: map<string, string>)
    requires models == [("GO_Labels", JsonModel(LabelDocument(labels)))]
    ensures LabelDictionary(models, GO) == Ok(labels)
    ensures LabelDictionary(models, HP) == Err(Crashed(MissingKey("HP_Labels")))
  {
    assert Keys(models) == ["GO_Labels"];
    assert GO.LabelsName() == "GO_Labels" && HP.LabelsName() == "HP_Labels";
  }
}

=== FILE: ranking.dfy ===
/**
 Exact nearest-neighbour ranking (`closest_go` / `closest_hp`): score every
 table entry except the query key, sort by score descending with Python's
 stable `list.sort(reverse=True)`, and keep the slice `[:top_n]`.
 */
module Ranking {
  import opened Basics
  import opened Dicts
  import opened Similarity

  type VectorTable = Dict<Vector>

  datatype Scored = Scored(key: string, score: real)

  function Max(a: int, b: int): int {
    if a >= b then a else b
  }

  /** The table entries the loop does not `continue` past: every key except `exclude`, in table order. */
  function Others(table: VectorTable, exclude: string): (r: VectorTable)
    ensures |r| <= |table|
    ensures forall i :: 0 <= i < |r| ==> r[i].0 != exclude && r[i] in table
    ensures forall k :: k in Keys(r) <==> k in Keys(table) && k != exclude
  {
    if |table| == 0 then []
    else
      var rest := Others(table[1..], exclude);
      assert Keys(table[1..]) == Keys(table)[1..];
      var r := (if table[0].0 == exclude then [] else [table[0]]) + rest;
      assert forall k :: k in Keys(r) <==> k in Keys(rest) || (table[0].0 != exclude && k == table[0].0) by {
        assert Keys(r) == (if table[0].0 == exclude then [] else [table[0].0]) + Keys(rest);
      }
      r
  }

  /** One step of the filter. */
  lemma LemmaOthersStep(table: VectorTable, exclude: string)
    requires |table| > 0
    ensures Others(table, exclude) == (if table[0].0 == exclude then [] else [table[0]]) + Others(table[1..], exclude)
  {
  }

  /** Every entry whose key is not the query key is visited. */
  lemma {:induction false} LemmaOthersKeeps(table: VectorTable, exclude: string)
    ensures forall i :: 0 <= i < |table| && table[i].0 != exclude ==> table[i] in Others(table, exclude)
  {
    if |table| > 0 {
      LemmaOthersStep(table, exclude);
      LemmaOthersKeeps(table[1..], exclude);
      forall i | 1 <= i < |table| && table[i].0 != exclude ensures table[i] in Others(table, exclude) {
        assert table[i] == table[1..][i - 1];
      }
    }
  }

  /** Without the query key in the table, every entry is visited in table order. */
  lemma {:induction false} LemmaOthersAbsent(table: VectorTable, exclude: string)
    requires exclude !in Keys(table)
    ensures Others(table, exclude) == table
  {
    if |table| > 0 {
      var tail := table[1..];
      LemmaKeysTail(table, exclude);
      LemmaOthersAbsent(tail, exclude);
      LemmaOthersStep(table, exclude);
      LemmaConsTail(table);
    }
  }

  /** A key missing from a table is neither its first key nor a key of its tail. */
  lemma LemmaKeysTail(table: VectorTable, k: string)
    requires |table| > 0 && k !in Keys(table)
    ensures k != table[0].0 && k !in Keys(table[1..])
  {
    assert Keys(table)[0] == table[0].0;
    assert Keys(table[1..]) == Keys(table)[1..];
  }

  lemma LemmaConsTail<T>(s: seq<T>)
    requires |s| > 0
    ensures [s[0]] + s[1..] == s
  {
  }

  /**
   With distinct table keys the filter removes exactly the entry of the query
   key and keeps the others in table order.
   */
  lemma {:induction false} LemmaOthersRemovesOne(table: VectorTable, exclude: string)
    requires DistinctKeys(table) && exclude in Keys(table)
    ensures var p := IndexOf(Keys(table), exclude);
      Others(table, exclude) == table[..p] + table[p + 1..]
  {
    var p := IndexOf(Keys(table), exclude);
    var tail := table[1..];
    LemmaOthersStep(table, exclude);
    LemmaDistinctTail(table);
    if table[0].0 == exclude {
      LemmaOthersAbsent(tail, exclude);
    } else {
      LemmaOthersRemovesOne(tail, exclude);
      var q := IndexOf(Keys(tail), exclude);
      assert p == q + 1;
      LemmaSlicesOfTail(table, q);
    }
  }

  /** The tail of a table with distinct keys has distinct keys, none of them the head's. */
  lemma LemmaDistinctTail(table: VectorTable)
    requires |table| > 0 && DistinctKeys(table)
    ensures Keys(table[1..]) == Keys(table)[1..]
    ensures DistinctKeys(table[1..]) && table[0].0 !in Keys(table[1..])
  {
    assert Keys(table[1..]) == Keys(table)[1..];
    assert Keys(table)[0] == table[0].0;
  }

  /** Cutting around position `q + 1` of `s` is cutting around `q` of its tail, behind the head. */
  lemma LemmaSlicesOfTail<T>(s: seq<T>, q: nat)
    requires q + 1 < |s|
    ensures s[..q + 1] + s[q + 2..] == [s[0]] + (s[1..][..q] + s[1..][q + 1..])
  {
    assert s[..q + 1] == [s[0]] + s[1..][..q];
    assert s[q + 2..] == s[1..][q + 1..];
  }

  /** With distinct table keys exactly the entry for the query key is dropped. */
  lemma {:induction false} LemmaOthersLength(table: VectorTable, exclude: string)
    requires DistinctKeys(table)
    ensures |Others(table, exclude)| == if exclude in Keys(table) then |table| - 1 else |table|
  {
    if |table| > 0 {
      assert Keys(table[1..]) == Keys(table)[1..];
      LemmaOthersLength(table[1..], exclude);
      if table[0].0 == exclude {
        assert exclude !in Keys(table)[1..];
      }
    }
  }

  /** The scoring loop: `(k, cosine(vec, v))` for each remaining entry, in table order. */
  function ScoreAll(query: Vector, table: VectorTable, exclude: string): seq<Scored> {
    var others := Others(table, exclude);
    seq(|others|, i requires 0 <= i < |others| => Scored(others[i].0, Cosine(query, others[i].1)))
  }

  predicate Descending(s: seq<Scored>) {
    forall i, j :: 0 <= i < j < |s| ==> s[i].score >= s[j].score
  }

  /** The entries of `s` whose score is `v`, in their order in `s`. */
  function WithScore(s: seq<Scored>, v: real): seq<Scored> {
    if |s| == 0 then []
    else (if s[0].score == v then [s[0]] else []) + WithScore(s[1..], v)
  }

  lemma {:induction false} LemmaWithScoreConcat(a: seq<Scored>, b: seq<Scored>, v: real)
    ensures WithScore(a + b, v) == WithScore(a, v) + WithScore(b, v)
  {
    if |a| == 0 {
      assert a + b == b;
    } else {
      assert (a + b)[0] == a[0];
      assert (a + b)[1..] == a[1..] + b;
      LemmaWithScoreConcat(a[1..], b, v);
    }
  }

  /**
   Inserts `x` in front of the first entry it is not below, so an entry that
   came earlier in the input stays ahead of later entries with an equal score.
   */
  function InsertDescending(x: Scored, s: seq<Scored>): (r: seq<Scored>)
    requires Descending(s)
    ensures multiset(r) == multiset(s) + multiset{x}
    ensures Descending(r)
    decreases |s|, 0
  {
    if |s| == 0 then [x]
    else if x.score >= s[0].score then [x] + s
    else
      assert s == [s[0]] + s[1..];
      var rest := InsertDescending(x, s[1..]);
      LemmaInsertBelow(x, s[1..], s[0].score);
      [s[0]] + rest
  }

  /** Inserting an entry no higher than a bound keeps every entry at or below it. */
  lemma LemmaInsertBelow(x: Scored, s: seq<Scored>, bound: real)
    requires Descending(s)
    requires x.score <= bound && forall e :: e in s ==> e.score <= bound
    ensures forall e :: e in InsertDescending(x, s) ==> e.score <= bound
    decreases |s|, 1
  {
    var r := InsertDescending(x, s);
    forall e | e in r ensures e.score <= bound {
      assert e in multiset(r);
    }
  }

  /** Insertion keeps the entries of each score in their previous order, with `x` first among its equals. */
  lemma {:induction false} LemmaInsertStable(x: Scored, s: seq<Scored>, v: real)
    requires Descending(s)
    ensures WithScore(InsertDescending(x, s), v) == if x.score == v then [x] + WithScore(s, v) else WithScore(s, v)
  {
    if |s| == 0 {
    } else if x.score >= s[0].score {
      assert ([x] + s)[1..] == s;
    } else {
      var rest := InsertDescending(x, s[1..]);
      LemmaInsertStable(x, s[1..], v);
      assert ([s[0]] + rest)[1..] == rest;
    }
  }

  /** `sims.sort(key=lambda x: x[1], reverse=True)`. */
  function SortDescending(s: seq<Scored>): (r: seq<Scored>)
    ensures multiset(r) == multiset(s)
    ensures Descending(r)
  {
    if |s| == 0 then []
    else
      assert s == [s[0]] + s[1..];
      InsertDescending(s[0], SortDescending(s[1..]))
  }

  /** The sort is stable: the entries sharing any one score keep their input order. */
  lemma {:induction false} LemmaSortStable(s: seq<Scored>, v: real)
    ensures WithScore(SortDescending(s), v) == WithScore(s, v)
  {
    if |s| > 0 {
      LemmaSortStable(s[1..], v);
      LemmaInsertStable(s[0], SortDescending(s[1..]), v);
    }
  }

  /** Length of the Python slice `s[:n]` of a sequence of length `len`. */
  function SliceLength(len: nat, n: int): (m: nat)
    ensures m <= len
  {
    if n >= 0 then Min(n, len) else Max(0, len + n)
  }

  /** `sims[:top_n]` of the stably sorted scores, in descending score order and drawn from the scores. */
  function TopN(scored: seq<Scored>, n: int): (r: seq<Scored>)
    ensures |r| == SliceLength(|scored|, n)
    ensures Descending(r)
    ensures multiset(r) <= multiset(scored)
  {
    var sorted := SortDescending(scored);
    var m := SliceLength(|sorted|, n);
    assert sorted == sorted[..m] + sorted[m..];
    sorted[..m]
  }

  /** An element counted more often in `s` than in its first `m` entries occurs after them. */
  lemma LemmaDroppedInSuffix(s: seq<Scored>, m: nat, e: Scored)
    requires m <= |s| && e in multiset(s) - multiset(s[..m])
    ensures exists j :: m <= j < |s| && s[j] == e
  {
    assert s == s[..m] + s[m..];
    assert multiset(s) == multiset(s[..m]) + multiset(s[m..]);
    assert e in s[m..];
    var j :| 0 <= j < |s| - m && s[m..][j] == e;
    assert s[m + j] == e;
  }

  /** Nothing left out of the top `n` scores above anything kept. */
  lemma LemmaTopNKeepsBest(scored: seq<Scored>, n: int, e: Scored, i: int)
    requires e in multiset(scored) - multiset(TopN(scored, n))
    requires 0 <= i < |TopN(scored, n)|
    ensures TopN(scored, n)[i].score >= e.score
  {
    var sorted := SortDescending(scored);
    var m := SliceLength(|sorted|, n);
    assert TopN(scored, n) == sorted[..m];
    LemmaDroppedInSuffix(sorted, m, e);
  }

  /** Among entries with equal scores, the kept ones are the first ones in table order. */
  lemma LemmaTopNTiesInOrder(scored: seq<Scored>, n: int, v: real)
    ensures WithScore(TopN(scored, n), v) <= WithScore(scored, v)
  {
    var sorted := SortDescending(scored);
    var m := SliceLength(|sorted|, n);
    assert sorted == sorted[..m] + sorted[m..];
    LemmaWithScoreConcat(sorted[..m], sorted[m..], v);
    LemmaSortStable(scored, v);
  }

  /** The ranked neighbours of the query vector among the table entries other than `exclude`. */
  function Neighbours(query: Vector, table: VectorTable, exclude: string, n: int): (r: seq<Scored>)
    ensures forall i :: 0 <= i < |r| ==> r[i].key != exclude && r[i].key in Keys(table)
    ensures Descending(r)
  {
    var scored := ScoreAll(query, table, exclude);
    var r := TopN(scored, n);
    forall i | 0 <= i < |r| ensures r[i].key != exclude && r[i].key in Keys(table) {
      assert r[i] in multiset(scored);
      var j :| 0 <= j < |scored| && scored[j] == r[i];
      var others := Others(table, exclude);
      assert others[j] in table;
    }
    r
  }

  /** Some ranked entry carries key `k`. */
  predicate Listed(r: seq<Scored>, k: string) {
    exists j :: 0 <= j < |r| && r[j].key == k
  }

  /** Each listed score is the cosine of the query vector and the table's vector for that key. */
  lemma LemmaNeighboursScored(query: Vector, table: VectorTable, exclude: string, n: int)
    requires DistinctKeys(table)
    ensures var r := Neighbours(query, table, exclude, n);
      forall i :: 0 <= i < |r| ==>
        Get(table, r[i].key).Some? && r[i].score == Cosine(query, Get(table, r[i].key).value)
  {
    var scored := ScoreAll(query, table, exclude);
    var others := Others(table, exclude);
    var r := Neighbours(query, table, exclude, n);
    assert r == TopN(scored, n);
    forall i | 0 <= i < |r|
      ensures Get(table, r[i].key).Some? && r[i].score == Cosine(query, Get(table, r[i].key).value)
    {
      assert r[i] in multiset(scored);
      var j :| 0 <= j < |scored| && scored[j] == r[i];
      assert others[j] in table;
      var t :| 0 <= t < |table| && table[t] == others[j];
      LemmaGetDistinct(table, t);
    }
  }

  /** No entry left out of the ranking (other than the query key) scores above a listed one. */
  lemma LemmaNeighboursBest(query: Vector, table: VectorTable, exclude: string, n: int)
    ensures var r := Neighbours(query, table, exclude, n);
      forall t, i :: 0 <= t < |table| && table[t].0 != exclude && !Listed(r, table[t].0) && 0 <= i < |r| ==>
        Cosine(query, table[t].1) <= r[i].score
  {
    var scored := ScoreAll(query, table, exclude);
    var others := Others(table, exclude);
    var r := Neighbours(query, table, exclude, n);
    assert r == TopN(scored, n);
    forall t, i | 0 <= t < |table| && table[t].0 != exclude && !Listed(r, table[t].0) && 0 <= i < |r|
      ensures Cosine(query, table[t].1) <= r[i].score
    {
      var e := Scored(table[t].0, Cosine(query, table[t].1));
      LemmaOthersKeeps(table, exclude);
      assert table[t] in others;
      var j :| 0 <= j < |others| && others[j] == table[t];
      assert scored[j] == e;
      assert e in multiset(scored);
      LemmaTopNKeepsBest(scored, n, e, i);
    }
  }

  /** For a table with distinct keys that holds the query key, `[:top_n]` keeps `min(top_n, |table|-1)` entries. */
  lemma LemmaNeighboursLength(query: Vector, table: VectorTable, exclude: string, n: int)
    requires DistinctKeys(table) && exclude in Keys(table)
    ensures n >= 0 ==> |Neighbours(query, table, exclude, n)| == Min(n, |table| - 1)
    ensures n < 0 ==> |Neighbours(query, table, exclude, n)| == Max(0, |table| - 1 + n)
  {
    LemmaOthersLength(table, exclude);
  }

  /** The scores of the example below: B is orthogonal to the query, C is not. */
  lemma LemmaScenarioScores(table: VectorTable)
    requires table == [("A", [1.0, 0.0]), ("B", [0.0, 1.0]), ("C", [1.0, 1.0])]
    ensures ScoreAll([1.0, 0.0], table, "A") == [Scored("B", 0.0), Scored("C", Cosine([1.0, 0.0], [1.0, 1.0]))]
    ensures Cosine([1.0, 0.0], [1.0, 1.0]) > 0.0
  {
    LemmaCosineExamples();
    var t1 := table[1..];
    var t2 := t1[1..];
    assert table[0].0 == "A" && t1[0] == ("B", [0.0, 1.0]) && t2 == [("C", [1.0, 1.0])] && t2[1..] == [];
    LemmaOthersStep(table, "A");
    LemmaOthersStep(t1, "A");
    LemmaOthersStep(t2, "A");
    assert Others(table, "A") == [("B", [0.0, 1.0]), ("C", [1.0, 1.0])];
  }

  /** Two entries in increasing score order come out of the sort swapped. */
  lemma LemmaSortPair(b: Scored, c: Scored)
    requires b.score < c.score
    ensures SortDescending([b, c]) == [c, b]
  {
    assert [b, c][1..] == [c];
    assert SortDescending([c]) == [c];
  }

  /** Table {A:[1,0], B:[0,1], C:[1,1]}, query A, top 2: C first with a positive score, then B with 0.0. */
  lemma LemmaNeighboursScenario()
    ensures var r := Neighbours([1.0, 0.0], [("A", [1.0, 0.0]), ("B", [0.0, 1.0]), ("C", [1.0, 1.0])], "A", 2);
      |r| == 2 && r[0].key == "C" && r[0].score > 0.0 && r[1] == Scored("B", 0.0)
  {
    var table := [("A", [1.0, 0.0]), ("B", [0.0, 1.0]), ("C", [1.0, 1.0])];
    LemmaScenarioScores(table);
    var b := Scored("B", 0.0);
    var c := Scored("C", Cosine([1.0, 0.0], [1.0, 1.0]));
    LemmaSortPair(b, c);
    assert TopN([b, c], 2) == [c, b];
  }
}

=== FILE: rdf.dfy ===
/** The parsed ontology as the two extraction scripts see it: a sequence of string triples. */
module Rdf {
  import opened Text

  /** One statement of the graph (subject, predicate, object), every node rendered with `str(...)`. */
  datatype Triple = Triple(subject: string, property: string, value: string)

  /** The IRI of `RDFS.label`. */
  const RdfsLabel: string := "http://www.w3.org/2000/01/rdf-schema#label"

  /** The scheme both scripts require of an entity IRI. */
  const Scheme: string := "http"

  /** The OBO namespace every GO and HP term IRI lives in. */
  const OboBase: string := Scheme + "://purl.obolibrary.org/obo/"

  /** The node filter both scripts share: `uri.startswith("http") and prefix in uri`. */
  predicate IsPrefixedIri(node: string, prefix: string) {
    StartsWith(node, "http") && Contains(node, prefix)
  }

  /** An OBO IRI whose local name starts with the prefix passes the filter. */
  lemma LemmaOboIriPasses(id: string, prefix: string)
    requires StartsWith(id, prefix)
    ensures IsPrefixedIri(OboBase + id, prefix)
  {
    var iri := OboBase + id;
    var rest := "://purl.obolibrary.org/obo/";
    assert iri == Scheme + (rest + id);
    assert iri[..|Scheme|] == Scheme;
    assert iri[|OboBase|..|OboBase| + |prefix|] == id[..|prefix|];
    assert OccursAt(iri, prefix, |OboBase|);
    LemmaContainsAt(iri, prefix);
  }
}

=== FILE: registry.dfy ===
/**
 The model registry `loaded_models`: built once at start-up by scanning the
 models directory, and the sorted model list the server exposes. The
 directory listing, and what each file would parse to, are inputs.
 */
module Registry {
  import opened Basics
  import opened Dicts
  import opened Text
  import opened Similarity

  /**
   A table loaded from a `.kv` file by the foreign vector library, known only
   by its key set and the similarity it reports for two keys.
   */
  datatype KeyedVectors = KeyedVectors(keys: set<string>, similarity: (string, string) -> real)

  /** What `json.load` yields for a model file: a key-to-vector table or a label dictionary. */
  datatype JsonDocument =
    | VectorDocument(vectors: Dict<Vector>)
    | LabelDocument(labels: map<string, string>)

  datatype Model = KvModel(kv: KeyedVectors) | JsonModel(doc: JsonDocument)

  type Models = Dict<Model>

  /**
   One file of the directory listing: its name, and what each loader would
   return for it (None where that loader raises).
   */
  datatype DirEntry = DirEntry(fileName: string, asKeyedVectors: Option<KeyedVectors>, asJson: Option<JsonDocument>)

  predicate IsKvFile(e: DirEntry) {
    Lower(SplitExt(e.fileName).1) == ".kv"
  }

  predicate IsJsonFile(e: DirEntry) {
    Lower(SplitExt(e.fileName).1) == ".json"
  }

  /** The body of the scan loop for one file: the (stem, model) it registers, if any. */
  function LoadEntry(e: DirEntry): (r: Option<(string, Model)>)
    ensures r.Some? <==> (IsKvFile(e) && e.asKeyedVectors.Some?) || (IsJsonFile(e) && e.asJson.Some?)
    ensures r.Some? ==> r.value.0 == SplitExt(e.fileName).0
    ensures r.Some? ==> r.value.1 == if IsKvFile(e) then KvModel(e.asKeyedVectors.value) else JsonModel(e.asJson.value)
  {
    var (stem, ext) := SplitExt(e.fileName);
    if Lower(ext) == ".kv" then
      match e.asKeyedVectors
      case Some(kv) => Some((stem, KvModel(kv)))
      case None => None
    else if Lower(ext) == ".json" then
      match e.asJson
      case Some(doc) => Some((stem, JsonModel(doc)))
      case None => None
    else
      None
  }

  predicate Loads(e: DirEntry, name: string) {
    LoadEntry(e).Some? && LoadEntry(e).value.0 == name
  }

  /** `loaded_models[name] = ...` for a file that loaded; nothing otherwise. */
  function Step(models: Models, e: DirEntry): Models {
    match LoadEntry(e)
    case Some((name, model)) => Put(models, name, model)
    case None => models
  }

  /** The scan loop over the listing, in listing order. */
  function LoadInto(models: Models, listing: seq<DirEntry>): Models
    decreases |listing|
  {
    if |listing| == 0 then models else LoadInto(Step(models, listing[0]), listing[1..])
  }

  /** The whole start-up load: an empty registry when the directory is missing. */
  function LoadModels(dirExists: bool, listing: seq<DirEntry>): Models {
    if dirExists then LoadInto([], listing) else []
  }

  /** The model the last file loading under `name` registered, if any file did. */
  ghost function LastLoaded(listing: seq<DirEntry>, name: string): Option<Model>
    decreases |listing|
  {
    if |listing| == 0 then None
    else
      var later := LastLoaded(listing[1..], name);
      if later.Some? then later
      else if Loads(listing[0], name) then Some(LoadEntry(listing[0]).value.1)
      else None
  }

  /** Each name ends up holding the model of the last file that loaded under it. */
  lemma {:induction false} LemmaLoadIntoGet(models: Models, listing: seq<DirEntry>, name: string)
    ensures Get(LoadInto(models, listing), name) ==
      if LastLoaded(listing, name).Some? then LastLoaded(listing, name) else Get(models, name)
    decreases |listing|
  {
    if |listing| > 0 {
      LemmaLoadIntoGet(Step(models, listing[0]), listing[1..], name);
    }
  }

  lemma {:induction false} LemmaLoadIntoDistinct(models: Models, listing: seq<DirEntry>)
    requires DistinctKeys(models)
    ensures DistinctKeys(LoadInto(models, listing))
    decreases |listing|
  {
    if |listing| > 0 {
      var e := listing[0];
      if LoadEntry(e).Some? {
        LemmaPutKeys(models, LoadEntry(e).value.0, LoadEntry(e).value.1);
      }
      LemmaLoadIntoDistinct(Step(models, e), listing[1..]);
    }
  }

  /** File `i` is the last one in the listing that loads under `name`. */
  ghost predicate LastLoadAt(listing: seq<DirEntry>, name: string, i: int) {
    && 0 <= i < |listing|
    && Loads(listing[i], name)
    && forall j :: i < j < |listing| ==> !Loads(listing[j], name)
  }

  lemma {:induction false} LemmaLastLoadedNone(listing: seq<DirEntry>, name: string)
    ensures LastLoaded(listing, name).None? <==> forall i :: 0 <= i < |listing| ==> !Loads(listing[i], name)
    decreases |listing|
  {
    if |listing| > 0 {
      LemmaLastLoadedNone(listing[1..], name);
      forall j | 0 < j < |listing| ensures listing[j] == listing[1..][j - 1] {
      }
    }
  }

  lemma {:induction false} LemmaLastLoadedSome(listing: seq<DirEntry>, name: string)
    requires LastLoaded(listing, name).Some?
    ensures exists i :: LastLoadAt(listing, name, i) && LastLoaded(listing, name).value == LoadEntry(listing[i]).value.1
    decreases |listing|
  {
    var rest := listing[1..];
    if LastLoaded(rest, name).Some? {
      LemmaLastLoadedSome(rest, name);
      var i :| LastLoadAt(rest, name, i) && LastLoaded(rest, name).value == LoadEntry(rest[i]).value.1;
      assert listing[i + 1] == rest[i];
      forall j | i + 1 < j < |listing| ensures !Loads(listing[j], name) {
        assert listing[j] == rest[j - 1];
      }
      assert LastLoadAt(listing, name, i + 1);
    } else {
      LemmaLastLoadedNone(rest, name);
      forall j | 0 < j < |listing| ensures !Loads(listing[j], name) {
        assert listing[j] == rest[j - 1];
      }
      assert LastLoadAt(listing, name, 0);
    }
  }

  /**
   A name is registered exactly when some file with that stem, a `.kv` or
   `.json` extension in any letter case, loaded; it holds the model of the
   last such file, and the registry has no duplicate names.
   */
  lemma LemmaLoadModels(dirExists: bool, listing: seq<DirEntry>, name: string)
    ensures DistinctKeys(LoadModels(dirExists, listing))
    ensures name in Keys(LoadModels(dirExists, listing)) <==>
      dirExists && exists i :: 0 <= i < |listing| && Loads(listing[i], name)
    ensures dirExists && name in Keys(LoadModels(dirExists, listing)) ==>
      exists i :: LastLoadAt(listing, name, i)
        && Get(LoadModels(dirExists, listing), name) == Some(LoadEntry(listing[i]).value.1)
  {
    if dirExists {
      LemmaLoadIntoDistinct([], listing);
      LemmaLoadIntoGet([], listing, name);
      LemmaLastLoadedNone(listing, name);
      if LastLoaded(listing, name).Some? {
        LemmaLastLoadedSome(listing, name);
      }
    }
  }

  lemma {:induction false} LemmaLoadIntoAppend(models: Models, a: seq<DirEntry>, b: seq<DirEntry>)
    ensures LoadInto(models, a + b) == LoadInto(LoadInto(models, a), b)
    decreases |a|
  {
    if |a| > 0 {
      assert (a + b)[0] == a[0];
      assert (a + b)[1..] == a[1..] + b;
      LemmaLoadIntoAppend(Step(models, a[0]), a[1..], b);
    } else {
      assert a + b == b;
    }
  }

  /** A file that is skipped or fails to load leaves the registry exactly as if it were absent. */
  lemma LemmaFailedFileOmitted(dirExists: bool, listing: seq<DirEntry>, i: int)
    requires 0 <= i < |listing| && LoadEntry(listing[i]).None?
    ensures LoadModels(dirExists, listing) == LoadModels(dirExists, listing[..i] + listing[i + 1..])
  {
    var a, b := listing[..i], listing[i + 1..];
    assert listing == a + [listing[i]] + b;
    LemmaLoadIntoAppend([], a + [listing[i]], b);
    LemmaLoadIntoAppend([], a, [listing[i]]);
    LemmaLoadIntoAppend([], a, b);
  }

  /** `sorted(loaded_models.keys())`: every registered name once, in ascending order. */
  function ModelList(models: Models): (names: seq<string>)
    requires DistinctKeys(models)
    ensures |names| == |models|
    ensures forall name :: name in names <==> name in Keys(models)
    ensures forall i, j :: 0 <= i < j < |names| ==> StrLe(names[i], names[j]) && names[i] != names[j]
  {
    var names := SortAscending(Keys(models));
    assert |names| == |multiset(names)| == |multiset(Keys(models))|;
    forall name ensures name in names <==> name in Keys(models) {
      assert name in names <==> name in multiset(names);
    }
    forall i, j | 0 <= i < j < |names| ensures names[i] != names[j] {
      LemmaDistinctAfterPermutation(Keys(models), names, i, j);
    }
    names
  }

  lemma LemmaDistinctAfterPermutation(s: seq<string>, t: seq<string>, i: int, j: int)
    requires NoDuplicates(s) && multiset(s) == multiset(t)
    requires 0 <= i < j < |t|
    ensures t[i] != t[j]
  {
    if t[i] == t[j] {
      var x := t[i];
      assert t == t[..i] + [x] + t[i + 1..j] + [x] + t[j + 1..];
      assert multiset(t)[x] >= 2;
      LemmaNoDuplicatesCount(s, x);
    }
  }

  lemma {:induction false} LemmaNoDuplicatesCount(s: seq<string>, x: string)
    requires NoDuplicates(s)
    ensures multiset(s)[x] <= 1
  {
    if |s| > 0 {
      assert s == [s[0]] + s[1..];
      LemmaNoDuplicatesCount(s[1..], x);
      if s[0] == x {
        assert x !in s[1..];
      }
    }
  }

  lemma LemmaLoadEntryBroken()
    ensures LoadEntry(DirEntry("GO_broken.json", None, None)).None?
  {
    var a := "GO_broken.json";
    assert a[9] == '.' && a[0] != '.';
    assert LastIndexOf(a, '.') == 9;
    assert LastIndexOf(a, '/') == -1;
  }

  lemma LemmaLoadEntryNoExtension(doc: JsonDocument)
    ensures LoadEntry(DirEntry("README", None, Some(doc))).None?
  {
    assert LastIndexOf("README", '.') == -1;
  }

  lemma LemmaLoadEntryValid(doc: JsonDocument)
    ensures LoadEntry(DirEntry("GO_RDF2Vec.json", None, Some(doc))) == Some(("GO_RDF2Vec", JsonModel(doc)))
  {
    LemmaSplitExtJson();
    assert Lower(".json") == ".json";
  }

  /**
   A corrupt JSON file and a file without a model extension leave the
   registry as it was; a valid JSON file is registered under its stem.
   */
  lemma LemmaLoadExamples(doc: JsonDocument)
    ensures Step([], DirEntry("GO_broken.json", None, None)) == []
    ensures Step([], DirEntry("GO_RDF2Vec.json", None, Some(doc))) == [("GO_RDF2Vec", JsonModel(doc))]
    ensures Step([("GO_RDF2Vec", JsonModel(doc))], DirEntry("README", None, Some(doc))) == [("GO_RDF2Vec", JsonModel(doc))]
  {
    LemmaLoadEntryBroken();
    LemmaLoadEntryNoExtension(doc);
    LemmaLoadEntryValid(doc);
    var empty: Models := [];
    assert Keys(empty) == [];
    assert Put(empty, "GO_RDF2Vec", JsonModel(doc)) == [("GO_RDF2Vec", JsonModel(doc))];
  }
}

=== FILE: similarity.dfy ===
/**
 Cosine similarity of two embeddings (`cosine` in the server). Floats are
 modelled as reals; `math.sqrt` is known only through the two facts the
 zero-norm fallback relies on, so that nothing here depends on rounding.
 */
module Similarity {

  /** What is assumed of `math.sqrt`: it maps 0 to 0 and positives to positives. */
  type SqrtFunction = f: real -> real | f(0.0) == 0.0 && forall x: real :: x > 0.0 ==> f(x) > 0.0
    witness (x: real) => x

  const Sqrt: SqrtFunction

  type Vector = seq<real>

  function Min(a: int, b: int): int {
    if a <= b then a else b
  }

  /** `sum(a*b for a,b in zip(v1,v2))`: pairs only up to the shorter vector's length. */
  function Dot(a: Vector, b: Vector): real {
    if |a| == 0 || |b| == 0 then 0.0 else a[0] * b[0] + Dot(a[1..], b[1..])
  }

  predicate IsZero(v: Vector) {
    forall i :: 0 <= i < |v| ==> v[i] == 0.0
  }

  /** `sum(a*a for a in v)`: the squared norm over the whole vector. */
  function SumOfSquares(v: Vector): (r: real)
    ensures IsZero(v) ==> r == 0.0
  {
    if |v| == 0 then 0.0
    else
      LemmaZeroSplit(v);
      v[0] * v[0] + SumOfSquares(v[1..])
  }

  lemma LemmaZeroSplit(v: Vector)
    requires |v| > 0
    ensures IsZero(v) <==> v[0] == 0.0 && IsZero(v[1..])
  {
    if v[0] == 0.0 && IsZero(v[1..]) {
      forall i | 0 <= i < |v| ensures v[i] == 0.0 {
        if i > 0 { assert v[i] == v[1..][i - 1]; }
      }
    }
  }

  /**
   `cosine(v1, v2)`: the dot product over the norm product, or exactly 0.0
   when either norm is zero (the `if n1 and n2 else 0.0` fallback).
   */
  function Cosine(v1: Vector, v2: Vector): (r: real)
    ensures IsZero(v1) || IsZero(v2) ==> r == 0.0
  {
    var dot := Dot(v1, v2);
    var n1 := Sqrt(SumOfSquares(v1));
    var n2 := Sqrt(SumOfSquares(v2));
    if n1 != 0.0 && n2 != 0.0 then dot / (n1 * n2) else 0.0
  }

  lemma {:induction false} LemmaDotSymmetric(a: Vector, b: Vector)
    ensures Dot(a, b) == Dot(b, a)
  {
    if |a| > 0 && |b| > 0 {
      LemmaDotSymmetric(a[1..], b[1..]);
    }
  }

  lemma LemmaCosineSymmetric(a: Vector, b: Vector)
    ensures Cosine(a, b) == Cosine(b, a)
  {
    LemmaDotSymmetric(a, b);
    var n1 := Sqrt(SumOfSquares(a));
    var n2 := Sqrt(SumOfSquares(b));
    assert n1 * n2 == n2 * n1;
  }

  /** `zip` stops at the shorter vector: the longer one's tail never enters the dot product. */
  lemma {:induction false} LemmaDotTruncates(a: Vector, b: Vector)
    ensures Dot(a, b) == Dot(a[..Min(|a|, |b|)], b[..Min(|a|, |b|)])
  {
    if |a| > 0 && |b| > 0 {
      LemmaDotTruncates(a[1..], b[1..]);
      var m := Min(|a|, |b|);
      assert a[..m][1..] == a[1..][..m - 1];
      assert b[..m][1..] == b[1..][..m - 1];
    }
  }

  /** Extending the longer vector leaves the dot product alone but not its norm. */
  lemma {:induction false} LemmaTailOnlyAffectsNorm(a: Vector, t: Vector, b: Vector)
    requires |b| <= |a|
    ensures Dot(a + t, b) == Dot(a, b)
    ensures SumOfSquares(a + t) == SumOfSquares(a) + SumOfSquares(t)
  {
    if |a| > 0 {
      assert (a + t)[1..] == a[1..] + t;
      if |b| > 0 {
        LemmaTailOnlyAffectsNorm(a[1..], t, b[1..]);
      } else {
        LemmaTailOnlyAffectsNorm(a[1..], t, b);
      }
    } else {
      assert a + t == t;
    }
  }

  /** Orthogonal unit vectors score 0.0; vectors at 45 degrees score positive. */
  lemma LemmaCosineExamples()
    ensures Cosine([1.0, 0.0], [0.0, 1.0]) == 0.0
    ensures Cosine([1.0, 0.0], [1.0, 1.0]) > 0.0
    ensures Cosine([0.0, 0.0], [1.0, 1.0]) == 0.0
  {
    var e1, d := [1.0, 0.0], [1.0, 1.0];
    assert e1[0] != 0.0 && d[0] != 0.0;
  }
}

=== FILE: text.dfy ===
/**
 The string operations the server and the extraction scripts rely on:
 Python's `str.lower`, `str.replace`, `str.startswith`, the `in` substring
 test, `str.split("/")[-1]`, `os.path.splitext` and the ordering `sorted`
 uses on strings.
 */
module Text {

  /** `c.lower()` for the ASCII letters; every other character is unchanged. */
  function LowerChar(c: char): char {
    if 'A' <= c <= 'Z' then (c as int + 32) as char else c
  }

  function Lower(s: string): string {
    seq(|s|, i requires 0 <= i < |s| => LowerChar(s[i]))
  }

  /** `s.replace(from, to)` for one-character `from` and `to`. */
  function ReplaceChar(s: string, from: char, to: char): string {
    seq(|s|, i requires 0 <= i < |s| => if s[i] == from then to else s[i])
  }

  /**
   The label normalisation `s.lower().replace("_", " ")`, used both when the
   label dictionary is built and when a query label is looked up.
   */
  function Normalize(s: string): string {
    ReplaceChar(Lower(s), '_', ' ')
  }

  lemma LemmaNormalizeHasNoUnderscore(s: string)
    ensures '_' !in Normalize(s)
    ensures |Normalize(s)| == |s|
  {
  }

  lemma LemmaNormalizeIdempotent(s: string)
    ensures Normalize(Normalize(s)) == Normalize(s)
  {
  }

  /** Two spellings that differ in letter case and in `_` versus space normalise to the same key. */
  lemma LemmaNormalizeCaseAndUnderscore()
    ensures Normalize("Cell_Division") == "cell division"
    ensures Normalize("cell division") == "cell division"
  {
  }

  /** `s.startswith(p)`. */
  predicate StartsWith(s: string, p: string) {
    |p| <= |s| && s[..|p|] == p
  }

  /** `p in s`: `p` occurs in `s` as a contiguous substring. */
  predicate Contains(s: string, p: string)
    decreases |s|
  {
    StartsWith(s, p) || (|s| > 0 && Contains(s[1..], p))
  }

  predicate OccursAt(s: string, p: string, i: int) {
    0 <= i <= |s| - |p| && s[i..i + |p|] == p
  }

  lemma {:induction false} LemmaContainsAt(s: string, p: string)
    ensures Contains(s, p) <==> exists i :: OccursAt(s, p, i)
    decreases |s|
  {
    if StartsWith(s, p) {
      assert OccursAt(s, p, 0);
    }
    if |s| > 0 {
      LemmaContainsAt(s[1..], p);
      if !StartsWith(s, p) && exists i :: OccursAt(s, p, i) {
        var i :| OccursAt(s, p, i);
        assert i != 0;
        assert OccursAt(s[1..], p, i - 1);
      }
      if !StartsWith(s, p) && Contains(s[1..], p) {
        var i :| OccursAt(s[1..], p, i);
        assert OccursAt(s, p, i + 1);
      }
    } else {
      if exists i :: OccursAt(s, p, i) {
        var i :| OccursAt(s, p, i);
        assert i == 0;
      }
    }
  }

  /** `s.split("/")[-1]`: the text after the last `/`, or all of `s` when it has none. */
  function LastSegment(s: string): (r: string)
    ensures '/' !in r
    ensures |r| <= |s| && s[|s| - |r|..] == r
    ensures |r| == |s| || s[|s| - |r| - 1] == '/'
  {
    if |s| == 0 then []
    else if s[|s| - 1] == '/' then []
    else LastSegment(s[..|s| - 1]) + [s[|s| - 1]]
  }

  /** Appending a segment without `/` to text ending in `/` makes that segment the last one. */
  lemma LemmaLastSegmentOfJoin(base: string, seg: string)
    requires |base| > 0 && base[|base| - 1] == '/'
    requires '/' !in seg
    ensures LastSegment(base + seg) == seg
  {
    var s := base + seg;
    assert s[|s| - |seg|..] == seg;
  }

  /** Index of the last occurrence of `c`, or -1 (`s.rfind(c)`). */
  function LastIndexOf(s: string, c: char): (r: int)
    ensures -1 <= r < |s|
    ensures r >= 0 ==> s[r] == c
    ensures forall j :: r < j < |s| ==> s[j] != c
  {
    if |s| == 0 then -1
    else if s[|s| - 1] == c then |s| - 1
    else LastIndexOf(s[..|s| - 1], c)
  }

  /**
   `os.path.splitext(p)`: the extension starts at the last `.` of the final
   path component, unless every character of that component before the dot is
   itself a dot (`.bashrc` and `..kv` have no extension).
   */
  function SplitExt(p: string): (r: (string, string))
    ensures r.0 + r.1 == p
    ensures r.1 != [] ==> r.1[0] == '.' && '.' !in r.1[1..] && '/' !in r.1
    ensures r.1 != [] <==>
      exists i :: LastIndexOf(p, '/') < i < LastIndexOf(p, '.') && p[i] != '.'
  {
    var sepIndex := LastIndexOf(p, '/');
    var dotIndex := LastIndexOf(p, '.');
    if exists i :: sepIndex < i < dotIndex && p[i] != '.' then
      (p[..dotIndex], p[dotIndex..])
    else
      (p, [])
  }

  lemma LemmaSplitExtJson()
    ensures SplitExt("GO_RDF2Vec.json") == ("GO_RDF2Vec", ".json")
  {
    var a := "GO_RDF2Vec.json";
    assert a[10] == '.' && a[0] != '.';
    assert LastIndexOf(a, '.') == 10;
    assert LastIndexOf(a, '/') == -1;
    assert a[..10] == "GO_RDF2Vec" && a[10..] == ".json";
  }

  lemma LemmaSplitExtLeadingDot()
    ensures SplitExt(".json") == (".json", "")
  {
    var a := ".json";
    assert a[0] == '.' && '.' !in a[1..];
  }

  /** Python's string ordering: lexicographic by code point, a proper prefix first. */
  predicate StrLe(a: string, b: string) {
    |a| == 0 || (|b| > 0 && (a[0] < b[0] || (a[0] == b[0] && StrLe(a[1..], b[1..]))))
  }

  lemma {:induction false} LemmaStrLeTotal(a: string, b: string)
    ensures StrLe(a, b) || StrLe(b, a)
  {
    if |a| > 0 && |b| > 0 && a[0] == b[0] {
      LemmaStrLeTotal(a[1..], b[1..]);
    }
  }

  lemma {:induction false} LemmaStrLeTransitive(a: string, b: string, c: string)
    requires StrLe(a, b) && StrLe(b, c)
    ensures StrLe(a, c)
  {
    if |a| > 0 && a[0] == b[0] && b[0] == c[0] {
      LemmaStrLeTransitive(a[1..], b[1..], c[1..]);
    }
  }

  lemma {:induction false} LemmaStrLeAntisymmetric(a: string, b: string)
    requires StrLe(a, b) && StrLe(b, a)
    ensures a == b
  {
    if |a| > 0 {
      LemmaStrLeAntisymmetric(a[1..], b[1..]);
      assert a == [a[0]] + a[1..];
      assert b == [b[0]] + b[1..];
    }
  }

  predicate Ascending(s: seq<string>) {
    forall i, j :: 0 <= i < j < |s| ==> StrLe(s[i], s[j])
  }

  function InsertAscending(x: string, s: seq<string>): (r: seq<string>)
    requires Ascending(s)
    ensures multiset(r) == multiset(s) + multiset{x}
    ensures Ascending(r)
    decreases |s|, 0
  {
    if |s| == 0 then [x]
    else if StrLe(x, s[0]) then
      forall j | 0 <= j < |s| ensures StrLe(x, s[j]) {
        if j > 0 { LemmaStrLeTransitive(x, s[0], s[j]); }
      }
      [x] + s
    else
      LemmaStrLeTotal(x, s[0]);
      assert s == [s[0]] + s[1..];
      var rest := InsertAscending(x, s[1..]);
      LemmaInsertAbove(x, s[1..], s[0]);
      [s[0]] + rest
  }

  /** Inserting a string no lower than a bound keeps every element at or above it. */
  lemma LemmaInsertAbove(x: string, s: seq<string>, bound: string)
    requires Ascending(s)
    requires StrLe(bound, x) && forall e :: e in s ==> StrLe(bound, e)
    ensures forall e :: e in InsertAscending(x, s) ==> StrLe(bound, e)
    decreases |s|, 1
  {
    var r := InsertAscending(x, s);
    forall e | e in r ensures StrLe(bound, e) {
      assert e in multiset(r);
    }
  }

  /** `sorted(names)` for a sequence of strings. */
  function SortAscending(s: seq<string>): (r: seq<string>)
    ensures multiset(r) == multiset(s)
    ensures Ascending(r)
  {
    if |s| == 0 then []
    else
      assert s == [s[0]] + s[1..];
      InsertAscending(s[0], SortAscending(s[1..]))
  }
}

=== FILE: tieorder.dfy ===
/**
 Order facts about the neighbour ranking: entries with equal scores come out
 in table order, because `list.sort` is stable and `[:top_n]` keeps a prefix,
 and therefore no key is listed twice.
 */
module TieOrder {
  import opened Basics
  import opened Dicts
  import opened Similarity
  import opened Ranking

  /** Entry `a` occurs in `s` somewhere before an occurrence of entry `b`. */
  predicate Before(s: seq<Scored>, a: Scored, b: Scored) {
    exists i, j :: 0 <= i < j < |s| && s[i] == a && s[j] == b
  }

  /** `WithScore` keeps exactly the entries of `s` with score `v`. */
  lemma {:induction false} LemmaWithScoreMembers(s: seq<Scored>, v: real, x: Scored)
    ensures x in WithScore(s, v) <==> x in s && x.score == v
  {
    if |s| > 0 {
      LemmaWithScoreMembers(s[1..], v, x);
      assert s == [s[0]] + s[1..];
    }
  }

  /** An order in `[x] + s` either starts at the head or lies within `s`. */
  lemma LemmaBeforeCons(x: Scored, s: seq<Scored>, a: Scored, b: Scored)
    ensures Before([x] + s, a, b) <==> (x == a && b in s) || Before(s, a, b)
  {
    var t := [x] + s;
    if Before(t, a, b) {
      var i, j :| 0 <= i < j < |t| && t[i] == a && t[j] == b;
      assert t[j] == s[j - 1];
      if i > 0 {
        assert t[i] == s[i - 1];
      }
    }
    if x == a && b in s {
      var j :| 0 <= j < |s| && s[j] == b;
      assert t[0] == a && t[j + 1] == b;
    }
    if Before(s, a, b) {
      var i, j :| 0 <= i < j < |s| && s[i] == a && s[j] == b;
      assert t[i + 1] == a && t[j + 1] == b;
    }
  }

  /** Two entries of score `v` keep their relative order when the others are filtered out. */
  lemma {:induction false} LemmaBeforeWithScore(s: seq<Scored>, v: real, a: Scored, b: Scored)
    requires Before(s, a, b) && a.score == v && b.score == v
    ensures Before(WithScore(s, v), a, b)
  {
    var rest := WithScore(s[1..], v);
    LemmaConsTail(s);
    LemmaBeforeCons(s[0], s[1..], a, b);
    if Before(s[1..], a, b) {
      LemmaBeforeWithScore(s[1..], v, a, b);
    } else {
      LemmaWithScoreMembers(s[1..], v, b);
    }
    if s[0].score == v {
      assert WithScore(s, v) == [s[0]] + rest;
      LemmaBeforeCons(s[0], rest, a, b);
    } else {
      assert WithScore(s, v) == rest;
    }
  }

  /** An order between entries with score `v` seen after filtering was already there before. */
  lemma {:induction false} LemmaBeforeOfWithScore(s: seq<Scored>, v: real, a: Scored, b: Scored)
    requires Before(WithScore(s, v), a, b)
    ensures Before(s, a, b)
  {
    var rest := WithScore(s[1..], v);
    LemmaConsTail(s);
    LemmaBeforeCons(s[0], s[1..], a, b);
    if s[0].score == v {
      assert WithScore(s, v) == [s[0]] + rest;
      LemmaBeforeCons(s[0], rest, a, b);
      if Before(rest, a, b) {
        LemmaBeforeOfWithScore(s[1..], v, a, b);
      } else {
        LemmaWithScoreMembers(s[1..], v, b);
      }
    } else {
      assert WithScore(s, v) == rest;
      LemmaBeforeOfWithScore(s[1..], v, a, b);
    }
  }

  /** With distinct keys, an entry's key is first found at the entry's own position. */
  lemma LemmaIndexOfDistinct<V>(d: Dict<V>, t: int)
    requires DistinctKeys(d) && 0 <= t < |d|
    ensures IndexOf(Keys(d), d[t].0) == t
  {
    assert Keys(d)[t] == d[t].0;
  }

  /** Position in the table of entry `x` of the filtered table: one further on from the query key's position. */
  lemma LemmaOthersIndex(table: VectorTable, exclude: string, x: int)
    requires DistinctKeys(table) && 0 <= x < |Others(table, exclude)|
    ensures var k := Others(table, exclude)[x].0;
      k in Keys(table) &&
      IndexOf(Keys(table), k) == if exclude in Keys(table) && x >= IndexOf(Keys(table), exclude) then x + 1 else x
  {
    var others := Others(table, exclude);
    if exclude in Keys(table) {
      var p := IndexOf(Keys(table), exclude);
      LemmaOthersRemovesOne(table, exclude);
      var t := if x < p then x else x + 1;
      assert others[x] == table[t];
      LemmaIndexOfDistinct(table, t);
    } else {
      LemmaOthersAbsent(table, exclude);
      LemmaIndexOfDistinct(table, x);
    }
  }

  /** The scoring loop visits the table in table order. */
  lemma LemmaScoredInTableOrder(query: Vector, table: VectorTable, exclude: string, x: int, y: int)
    requires DistinctKeys(table)
    requires 0 <= x < y < |ScoreAll(query, table, exclude)|
    ensures var scored := ScoreAll(query, table, exclude);
      scored[x].key in Keys(table) && scored[y].key in Keys(table) &&
      IndexOf(Keys(table), scored[x].key) < IndexOf(Keys(table), scored[y].key)
  {
    var others := Others(table, exclude);
    var scored := ScoreAll(query, table, exclude);
    assert scored[x].key == others[x].0 && scored[y].key == others[y].0;
    LemmaOthersIndex(table, exclude, x);
    LemmaOthersIndex(table, exclude, y);
  }

  /**
   Neighbours with equal scores are listed in table order: the sort is stable
   and the slice keeps the first of the tied entries.
   */
  lemma LemmaNeighboursTiesInOrder(query: Vector, table: VectorTable, exclude: string, n: int)
    requires DistinctKeys(table)
    ensures var r := Neighbours(query, table, exclude, n);
      forall i, j :: 0 <= i < j < |r| && r[i].score == r[j].score ==>
        IndexOf(Keys(table), r[i].key) < IndexOf(Keys(table), r[j].key)
  {
    var scored := ScoreAll(query, table, exclude);
    var r := Neighbours(query, table, exclude, n);
    assert r == TopN(scored, n);
    forall i, j | 0 <= i < j < |r| && r[i].score == r[j].score
      ensures IndexOf(Keys(table), r[i].key) < IndexOf(Keys(table), r[j].key)
    {
      LemmaTiedPair(query, table, exclude, n, i, j);
    }
  }

  /** One tied pair of the ranking: it was in this order among the scores, hence in the table. */
  lemma LemmaTiedPair(query: Vector, table: VectorTable, exclude: string, n: int, i: int, j: int)
    requires DistinctKeys(table)
    requires var r := Neighbours(query, table, exclude, n); 0 <= i < j < |r| && r[i].score == r[j].score
    ensures var r := Neighbours(query, table, exclude, n);
      IndexOf(Keys(table), r[i].key) < IndexOf(Keys(table), r[j].key)
  {
    var scored := ScoreAll(query, table, exclude);
    var r := Neighbours(query, table, exclude, n);
    assert r == TopN(scored, n);
    assert Before(r, r[i], r[j]);
    LemmaTopNTiedBefore(scored, n, r[i], r[j]);
    var x, y :| 0 <= x < y < |scored| && scored[x] == r[i] && scored[y] == r[j];
    LemmaScoredInTableOrder(query, table, exclude, x, y);
  }

  /** Two tied entries of the top `n` were in the same order among all the scores. */
  lemma LemmaTopNTiedBefore(scored: seq<Scored>, n: int, a: Scored, b: Scored)
    requires Before(TopN(scored, n), a, b) && a.score == b.score
    ensures Before(scored, a, b)
  {
    var v := a.score;
    LemmaBeforeWithScore(TopN(scored, n), v, a, b);
    LemmaTopNTiesInOrder(scored, n, v);
    var kept, all := WithScore(TopN(scored, n), v), WithScore(scored, v);
    var p, q :| 0 <= p < q < |kept| && kept[p] == a && kept[q] == b;
    assert all[p] == a && all[q] == b;
    LemmaBeforeOfWithScore(scored, v, a, b);
  }

  /**
   An entry left out although it ties with a listed one comes later in the
   table than that listed one: the slice keeps the first of the tied entries.
   */
  lemma LemmaTieAtCut(query: Vector, table: VectorTable, exclude: string, n: int)
    requires DistinctKeys(table)
    ensures var r := Neighbours(query, table, exclude, n);
      forall t, i ::
        (0 <= t < |table| && table[t].0 != exclude && !Listed(r, table[t].0) && 0 <= i < |r| &&
         Cosine(query, table[t].1) == r[i].score) ==>
        IndexOf(Keys(table), r[i].key) < t
  {
    var r := Neighbours(query, table, exclude, n);
    forall t, i | 0 <= t < |table| && table[t].0 != exclude && !Listed(r, table[t].0) && 0 <= i < |r| &&
      Cosine(query, table[t].1) == r[i].score
      ensures IndexOf(Keys(table), r[i].key) < t
    {
      LemmaLeftOutTie(query, table, exclude, n, t, i);
    }
  }

  /** One left-out entry `t` tied with listed entry `i`. */
  lemma LemmaLeftOutTie(query: Vector, table: VectorTable, exclude: string, n: int, t: int, i: int)
    requires DistinctKeys(table)
    requires var r := Neighbours(query, table, exclude, n);
      0 <= t < |table| && table[t].0 != exclude && !Listed(r, table[t].0) && 0 <= i < |r| &&
      Cosine(query, table[t].1) == r[i].score
    ensures IndexOf(Keys(table), Neighbours(query, table, exclude, n)[i].key) < t
  {
    var scored := ScoreAll(query, table, exclude);
    var others := Others(table, exclude);
    var r := Neighbours(query, table, exclude, n);
    assert r == TopN(scored, n);
    var e := Scored(table[t].0, Cosine(query, table[t].1));
    LemmaOthersKeeps(table, exclude);
    var y :| 0 <= y < |others| && others[y] == table[t];
    assert scored[y] == e;
    LemmaListedMember(r, e);
    LemmaLeftOutAfter(scored, n, r[i], e);
    var x, z :| 0 <= x < z < |scored| && scored[x] == r[i] && scored[z] == e;
    LemmaScoredInTableOrder(query, table, exclude, x, z);
    LemmaIndexOfDistinct(table, t);
  }

  /** An entry of a ranking makes its key listed. */
  lemma LemmaListedMember(r: seq<Scored>, e: Scored)
    ensures e in r ==> Listed(r, e.key)
  {
    if e in r {
      var j :| 0 <= j < |r| && r[j] == e;
      assert r[j].key == e.key;
    }
  }

  /** A score left out of the top `n` that ties with a kept one came after it among all the scores. */
  lemma LemmaLeftOutAfter(scored: seq<Scored>, n: int, a: Scored, e: Scored)
    requires a in TopN(scored, n) && e in scored && e !in TopN(scored, n) && a.score == e.score
    ensures Before(scored, a, e)
  {
    var v := a.score;
    var r := TopN(scored, n);
    LemmaTopNTiesInOrder(scored, n, v);
    var kept, all := WithScore(r, v), WithScore(scored, v);
    LemmaWithScoreMembers(r, v, a);
    LemmaWithScoreMembers(r, v, e);
    LemmaWithScoreMembers(scored, v, e);
    var p :| 0 <= p < |kept| && kept[p] == a;
    var q :| 0 <= q < |all| && all[q] == e;
    assert q >= |kept|;
    assert all[p] == a;
    assert Before(all, a, e);
    LemmaBeforeOfWithScore(scored, v, a, e);
  }

  /** No neighbour is listed twice: a repeated key would score the same and precede itself in table order. */
  lemma LemmaNeighboursDistinct(query: Vector, table: VectorTable, exclude: string, n: int)
    requires DistinctKeys(table)
    ensures var r := Neighbours(query, table, exclude, n);
      forall i, j :: 0 <= i < j < |r| ==> r[i].key != r[j].key
  {
    LemmaNeighboursScored(query, table, exclude, n);
    LemmaNeighboursTiesInOrder(query, table, exclude, n);
  }
}
